=== FILE: README.md ===
# Dropdown, modal and events-table logic of a Vue component library

This project models three pieces of sequential logic from a Vue 3 UI component library and proves properties of them in Dafny.

- **The documentation events templater.** It turns a component's event metadata into a markdown table.
  - `mdclean` turns every line break (`\r\n` or `\n`) into `<br>` and escapes every `|` as `\|`.
  - `formatProperties` renders an event's property list, one line per property.
  - `tmpl` emits one table row per event.
  - The exported builder wraps the rows in a heading and a table header. The heading gets one extra `#` for sub-components and for components that have sub-components.
- **The dropdown** (`CDropdown`). The model covers:
  - the prop validators;
  - the placement handed to the positioning library;
  - the `visible` state machine driven by toggle, hide and outside clicks or key releases;
  - the watcher that attaches and detaches the positioning handle;
  - the classes of the wrapper element.
- **The modal** (`CModal`). The model covers:
  - the prop validators;
  - the window-level click and key-up handlers, which either emit `dismiss` or briefly flash `modal-static`;
  - the transition hooks that register and remove those handlers;
  - the classes of the dialog element.

The DOM is abstracted throughout:
- Whether an event's target lies inside an element is a boolean on the event.
- Whether an element reference is set is a boolean.
- The positioning library's instance is an opaque `Handle`.
- Emitted events and class flashes are returned as lists of effects.

Strings are `seq<char>`. `Text` holds JavaScript's `split` on a one-character separator and `join` with any separator string.

The modules are:
- `Optional` holds `Option`, for values that may be `undefined`.
- `Text` holds the string helpers.
- `EventsTemplate` models `build/templates/events.js`.
- `Dropdown` models `src/components/dropdown/CDropdown.ts`.
- `Modal` models `src/components/modal/CModal.ts`.

While the props stay fixed, a positioning handle in the dropdown implies that the menu is open, positioning is enabled and the alignment is not an object. The converse does not hold. The watcher on `visible` (CDropdown.ts line 257) has no `immediate` option, so a dropdown mounted open has no handle until it is closed and reopened. `Dropdown.Consistent` therefore states only the forward direction. The invariant also needs the props to stay fixed. A parent that switches `popper` off while the menu is open leaves the handle attached after the menu closes, as `Dropdown.PopperSwitchedOffWhileOpen` shows. Likewise the dropdown's window listeners are registered once at mount for the component's whole lifetime, not only while the menu is open. The model lets outside interactions act whenever the root element exists.

## Model

| member | source | states |
|---|---|---|
| EventsTemplate.BreakLines | build/templates/events.js:4 | The first replacement's result contains no line feed. |
| EventsTemplate.EscapePipes | build/templates/events.js:4 | After the second replacement every pipe comes right after a backslash. That backslash may itself be escaped: the input backslash-pipe comes out as two backslashes and a pipe. No line feed is added or removed. |
| EventsTemplate.MdClean | build/templates/events.js:3-5 | The output has no line feed, and every pipe in it is escaped. |
| EventsTemplate.MdCleanEscapes | build/templates/events.js:4 | Positional form: each pipe in the output sits right after a backslash. |
| EventsTemplate.BreakLinesPipes | build/templates/events.js:4 | Turning line breaks into `<br>` keeps the number of pipes. |
| EventsTemplate.EscapePipesCount | build/templates/events.js:4 | Escaping keeps the number of pipes. |
| EventsTemplate.MdCleanPipeCount | build/templates/events.js:4 | `mdclean` keeps the number of pipes. |
| EventsTemplate.MdCleanIdentity | build/templates/events.js:4 | A string with no line feed and no pipe comes back unchanged. |
| EventsTemplate.BreakLinesAppend | build/templates/events.js:4 | Line-break replacement splits over every concatenation that does not cut a `\r\n` pair in two. |
| EventsTemplate.EscapePipesAppend | build/templates/events.js:4 | Pipe escaping splits over any concatenation. |
| EventsTemplate.MdCleanAppend | build/templates/events.js:4 | `mdclean` works piece by piece whenever no `\r\n` pair straddles the boundary, so a left part ending in a carriage return is allowed when the right part does not start with a line feed. |
| EventsTemplate.MdCleanTokens | build/templates/events.js:4 | `\r\n` and `\n` each become `<br>`, a pipe becomes a backslash followed by a pipe, and any other single character is kept. |
| EventsTemplate.ExampleName | build/templates/events.js:4 | The name `a`, pipe, `b` becomes `a`, backslash, pipe, `b`. |
| EventsTemplate.ExampleDescription | build/templates/events.js:4 | `x` line-feed `y` becomes `x<br>y`. |
| EventsTemplate.Entries | build/templates/events.js:12-18 | The map yields one entry per property. |
| EventsTemplate.FormatProperties | build/templates/events.js:7-20 | Absent properties and an empty list both render as the empty string. |
| EventsTemplate.EntryShape | build/templates/events.js:13-17 | An entry is empty exactly when the property has no type. Otherwise it reads `**name** \`types\` - description`: the bold name comes first, the description last, and the code span holds exactly the type names joined by a comma and a space. An empty type list gives empty backticks. The entry has no line feed when its parts have none. |
| EventsTemplate.FormatProperty | build/templates/events.js:12-18 | A property renders as the empty string exactly when it has no type. |
| EventsTemplate.FormatPropertiesEntries | build/templates/events.js:11-19 | Splitting the rendered list on line feeds gives back exactly one entry per property, in order. |
| EventsTemplate.FormatPropertiesLineFeeds | build/templates/events.js:11-19 | The rendered list of n properties holds exactly n - 1 line feeds. |
| EventsTemplate.RowText | build/templates/events.js:25-27 | A row has no line feed of its own. |
| EventsTemplate.Rows | build/templates/events.js:24-28 | One row per event, none holding a line feed. |
| EventsTemplate.RowStart | build/templates/events.js:27 | Every row starts with a pipe, a space and `<code>`. |
| EventsTemplate.TmplLines | build/templates/events.js:22-30 | The output splits into the rows followed by one empty tail, so it has exactly one line feed per event. Each row starts with a pipe, a space and `<code>`, and no events give the empty string. |
| EventsTemplate.Tmpl | build/templates/events.js:22-30 | The output is empty exactly when there are no events. |
| EventsTemplate.TerminatedThen | build/templates/events.js:27 | Rows each ending in a line feed split back into those rows, followed by the split of whatever comes after. |
| EventsTemplate.TableRowCells | build/templates/events.js:27 | With escaped contents, a row has exactly four markdown cells: the empty lead, the code-formatted name, the properties and the description. |
| EventsTemplate.RowCells | build/templates/events.js:25-27 | A row's cells hold the cleaned name, properties and description. A missing description gives the cell `" "` and missing properties give `"  "`. |
| EventsTemplate.HeadingLevel | build/templates/events.js:34 | The heading has five `#` when either sub-component flag is set and four otherwise. |
| EventsTemplate.Heading | build/templates/events.js:34 | The heading is five hashes for sub-components and components with sub-components, four otherwise, followed by ` Events`. |
| EventsTemplate.LeadingHashesPrefix | build/templates/events.js:34 | Counting leading `#` characters counts exactly the prefix of hashes. |
| EventsTemplate.PreambleLines | build/templates/events.js:33-37 | The document opens with an empty line, the heading, an empty line, the title line and the rule line. |
| EventsTemplate.BodyLines | build/templates/events.js:38-39 | The body splits into the first row with the two-space indent in front, the other rows unindented, an empty line after the last row's line feed, and the two-space closing line. |
| EventsTemplate.BodyRows | build/templates/events.js:38-39 | The body's lines are the first row indented by two spaces, the other rows in column 0, an empty line, and the two-space closing line. No events give two indent-only lines. |
| EventsTemplate.DocumentLines | build/templates/events.js:32-40 | The document's first five lines are the fixed preamble with the right heading level, and the rest are the body's lines. |
| EventsTemplate.Document | build/templates/events.js:32-40 | The section starts with a line feed, the heading and a line feed, and ends with a line feed and the two-space closing indent. |
| Dropdown.AlignmentValidator | src/components/dropdown/CDropdown.ts:24-47 | Accepts exactly `'start'`, `'end'`, or an object with some breakpoint among xs/sm/md/lg/xl/xxl set to one of them. It is not called on `null`, which Vue passes through unvalidated. |
| Dropdown.AlignmentIgnoresOtherKeys | src/components/dropdown/CDropdown.ts:28-46 | Adding a non-breakpoint field never changes the alignment verdict. |
| Dropdown.DefaultsValid | src/components/dropdown/CDropdown.ts:73-145 | The defaults `'bottom-start'` and `'btn-group'` pass their membership validators. |
| Dropdown.DirectionOverrides | src/components/dropdown/CDropdown.ts:77-79 | Without end alignment, the direction replaces the `placement` prop exactly when the direction validator accepts it: dropup, dropend and dropstart override, and no other value does. |
| Dropdown.PlacementReachesPopper | src/components/dropdown/CDropdown.ts:98-117 | The computed placement is one the placement validator accepts exactly when the `placement` prop is, or when end alignment or a valid direction replaces it. |
| Dropdown.InitialPlacement | src/components/dropdown/CDropdown.ts:179-190 | End alignment gives `bottom-end`. Otherwise dropup, dropend and dropstart give top-start, right-start and left-start, and any other direction keeps the `placement` prop. A valid `placement` prop always yields a valid placement. |
| Dropdown.Init | src/components/dropdown/CDropdown.ts:159-170 | The shared `visible` starts from the prop, with no positioning handle. |
| Dropdown.ToggleMenu | src/components/dropdown/CDropdown.ts:217-225 | When enabled it flips `visible`; when disabled it changes nothing. The handle is untouched. |
| Dropdown.HideMenu | src/components/dropdown/CDropdown.ts:229-233 | When enabled it closes the menu; when disabled it changes nothing. |
| Dropdown.ToggleTwice | src/components/dropdown/CDropdown.ts:217-225 | Toggling twice restores the state; disabled toggling is the identity. |
| Dropdown.HideIdempotent | src/components/dropdown/CDropdown.ts:229-233 | Hiding twice is hiding once. |
| Dropdown.HandleInteraction | src/components/dropdown/CDropdown.ts:235-246 | A click or key release hides the menu exactly when the root element exists and the target is outside it. Otherwise nothing changes. |
| Dropdown.InsideKeepsState | src/components/dropdown/CDropdown.ts:235-246 | An inside interaction, or one before the root exists, leaves the whole state unchanged, watcher included. |
| Dropdown.OutsideCloses | src/components/dropdown/CDropdown.ts:235-246 | An outside interaction closes an enabled menu. |
| Dropdown.InitPopper | src/components/dropdown/CDropdown.ts:192-204 | An object or `null` alignment, or a missing root element, creates nothing. Otherwise a handle with the initial placement is created. |
| Dropdown.DestroyPopper | src/components/dropdown/CDropdown.ts:206-211 | Leaves no handle and keeps `visible`. |
| Dropdown.DestroyIdempotent | src/components/dropdown/CDropdown.ts:206-211 | Destroying twice is destroying once. |
| Dropdown.Step | src/components/dropdown/CDropdown.ts:257 | An action followed by the watcher: the resulting `visible` is the action's own. |
| Dropdown.OnVisibleChange | src/components/dropdown/CDropdown.ts:257 | The watcher never changes `visible`. With positioning off it changes nothing. With positioning on it detaches the handle when the menu is closed and runs the handle creation when it is open. |
| Dropdown.WatcherEffect | src/components/dropdown/CDropdown.ts:257 | With positioning on, closing leaves no handle. Opening attaches a handle with the initial placement unless the alignment is responsive or nothing is mounted, in which case the handle is left as it was. |
| Dropdown.InitConsistent | src/components/dropdown/CDropdown.ts:160-170 | The state after setup satisfies the handle invariant. |
| Dropdown.StepConsistent | src/components/dropdown/CDropdown.ts:192-257 | Each action and watcher run preserve the invariant: a handle exists only while open, with positioning on and an alignment that is neither an object nor `null`, and it carries the initial placement. |
| Dropdown.RunConsistent | src/components/dropdown/CDropdown.ts:192-257 | With the props fixed for the whole run, the invariant holds after any sequence of actions. |
| Dropdown.ReachableHandles | src/components/dropdown/CDropdown.ts:192-257 | With the props fixed, in every reachable state a handle implies an open menu. An object or `null` alignment, or positioning switched off, never yields a handle. |
| Dropdown.PopperSwitchedOffWhileOpen | src/components/dropdown/CDropdown.ts:257 | If `popper` is switched off between opening and closing, the closed menu keeps its handle, so the invariant needs fixed props. |
| Dropdown.ToggleTwiceStep | src/components/dropdown/CDropdown.ts:217-257 | Opening then closing a closed dropdown that satisfies the handle invariant (every state reached with fixed props does) returns it to exactly its starting state, handle included. |
| Dropdown.DisabledFrozen | src/components/dropdown/CDropdown.ts:217-246 | A disabled dropdown's state never changes under any sequence of actions. |
| Dropdown.ClassEntry | src/components/dropdown/CDropdown.ts:265-268 | A class-array entry contributes nothing exactly when it is absent or empty. |
| Dropdown.WrapperClasses | src/components/dropdown/CDropdown.ts:259-271 | There is no wrapper exactly for `'input-group'`. Otherwise every class is non-empty. |
| Dropdown.WrapperShape | src/components/dropdown/CDropdown.ts:259-271 | For valid props the wrapper's first class is `'nav-item dropdown'` for nav-item and the variant otherwise. The direction, when given, is the second and last class. |
| Dropdown.VariantClass | src/components/dropdown/CDropdown.ts:266 | The class is empty exactly when the variant is. A valid variant gives btn-group, dropdown, input-group or `nav-item dropdown`. |
| Dropdown.VariantWrapper | src/components/dropdown/CDropdown.ts:142-144 | For a variant the validator accepts, the wrapper, when there is one, is classed btn-group, dropdown or `nav-item dropdown`. |
| Modal.DefaultProps | src/components/modal/CModal.ts:14-69 | The default alignment `'top'` is valid, the default backdrop is not static, and `keyboard` defaults to on. |
| Modal.FullscreenValidator | src/components/modal/CModal.ts:50-58 | Every boolean is accepted. A string is accepted exactly when it is sm, md, lg, xl or xxl. |
| Modal.HandleKeyUp | src/components/modal/CModal.ts:154-170 | `dismiss` is emitted exactly when the content exists, the target is outside it, the backdrop is not static, the key is Escape and `keyboard` is on. A static modal flashes for every key and target, and throws if the modal element is missing. A non-static modal emits at most one effect and never flashes. |
| Modal.HandleClickOutside | src/components/modal/CModal.ts:171-185 | `dismiss` is emitted exactly when the content exists, the target is outside it and the backdrop is not static. A static modal flashes instead, even for clicks inside the content. A non-static modal emits at most one effect. |
| Modal.HandleInput | src/components/modal/CModal.ts:154-185 | For either window event, `dismiss` is emitted exactly when the content exists, the target is outside it, the backdrop is not static, and for a key also the key is Escape with `keyboard` on. A handler throws exactly when the backdrop is static and the modal element is missing. |
| Modal.ApplyHook | src/components/modal/CModal.ts:123-148 | Enter and leave set and clear the body class. After-enter and after-leave register and remove the window handlers. |
| Modal.Deliver | src/components/modal/CModal.ts:133-148 | An event reaches the handlers only while they are registered. |
| Modal.SessionLife | src/components/modal/CModal.ts:133-148 | Starting closed, the handlers are registered exactly when the last listener hook was after-enter. The body is marked open exactly when the last body hook was enter. |
| Modal.SessionSnoc | src/components/modal/CModal.ts:133-148 | Processing one more item is one more step. |
| Modal.NothingBeforeShown | src/components/modal/CModal.ts:133-136 | Without an after-enter hook, no event has any effect and the handlers stay unregistered. |
| Modal.StaticNeverDismissed | src/components/modal/CModal.ts:164-184 | A static modal never emits `dismiss` over any sequence of hooks and events. |
| Modal.NonStaticNeverFlashes | src/components/modal/CModal.ts:154-185 | A non-static modal never flashes and never throws over any sequence. |
| Modal.AssignLookup | src/components/modal/CModal.ts:215-222 | Writing a key into a class object makes it read back the new value and leaves other keys alone. |
| Modal.AssignDistinct | src/components/modal/CModal.ts:215-222 | Writing a key keeps the object's keys distinct. |
| Modal.BuildLookup | src/components/modal/CModal.ts:215-222 | An object literal has each key once, holding the last value written for it. |
| Modal.ObjectClassesMember | src/components/modal/CModal.ts:213-222 | A class-object key becomes a class exactly when the last value written for it is truthy. No class appears twice. |
| Modal.BuildDistinct | src/components/modal/CModal.ts:215-222 | An object literal with distinct keys is its entries, in order. |
| Modal.DialogClasses | src/components/modal/CModal.ts:213-222 | The dialog's classes start with `modal-dialog`. |
| Modal.DialogEntries | src/components/modal/CModal.ts:215-222 | The class object has five entries, and every key starts with `modal-`. |
| Modal.DialogKeysDistinct | src/components/modal/CModal.ts:215-222 | With a valid or absent size, the five class-object keys are pairwise distinct. |
| Modal.DialogClassesExpected | src/components/modal/CModal.ts:213-222 | With a valid or absent size, the dialog's classes are exactly the prop-by-prop reading: centred, fullscreen breakpoint, full fullscreen, scrollable, size, in that order. |
| Modal.ExpectedMember | src/components/modal/CModal.ts:213-222 | A class is in the prop-by-prop reading exactly when it is `modal-dialog` or its prop asks for it. |
| Modal.DialogClassesValid | src/components/modal/CModal.ts:213-222 | For valid props: `modal-dialog-centered` exactly for center alignment; a breakpoint gives `modal-fullscreen-<bp>-down`; `modal-fullscreen` exactly for `true`, never with the breakpoint class; `modal-dialog-scrollable` exactly when scrollable; a size gives `modal-<size>`. |
| Modal.AlignmentCentres | src/components/modal/CModal.ts:17-19 | With a valid alignment, the dialog is centred exactly when it is not top-aligned. |
| Modal.SizeClass | src/components/modal/CModal.ts:94-96 | A valid size makes the size class one of `modal-sm`, `modal-lg` and `modal-xl`, and the dialog carries it. |

## Left out

- Vue machinery is not modelled: `defineComponent`, `h`, `provide`, `reactive`/`toRefs` and `Transition`. Only the class lists and decisions that rendering uses are modelled.
- The real DOM is not modelled: `contains`, `classList`, `style.display`, `document.body`. These become booleans on events and refs, the body flag and the effect lists.
- The positioning library's geometry is another package. It is an opaque `Handle` that records the placement it was created with.
- Timers are not modelled: the 1 ms `show` delay, the 300 ms `modal-static` removal, and the `transitionend` callbacks. `FlashStatic` stands for "added now, removed later". When the transition hooks run is an input to the model.
- `window.addEventListener` is a registration flag. Adding an already registered handler changes nothing, so one flag is enough.
- The dropdown's mount and unmount listener hooks are represented only by the `mounted` parameter. Lifetimes that span unmounting are not modelled.
- Vue's scheduler coalesces several `visible` changes within one tick into one watcher run. The model runs the watcher after each action, as separate ticks do.
- Later changes to the dropdown's `visible` prop are not modelled. The shared state copies the props once at setup.
- Props stay the same across a `Dropdown.Run` and a `Modal.Session`, and so do the modal's element refs. The source reads `disabled`, `alignment` and `popper` afresh at each dropdown event, but computes `placement` only once at setup. The modal reads `backdrop` and `keyboard` at each event. The dropdown's invariant and the session lemmas are stated only for fixed props. `Dropdown.PopperSwitchedOffWhileOpen` shows one consequence of a change: the handle stays after closing.
- A Dafny `char` is a Unicode scalar value, while a JavaScript string is a sequence of UTF-16 code units. Nothing proved depends on the difference, because only `\r`, `\n`, `|` and `#` are matched.
- Props that only pass through to children or styling are not modelled. For the dropdown these are `caret`, `dark` and `trigger`. For the modal these are `className`, `dismiss`, `transition` and `visible`. The outer modal element's classes, `attrs.class` and the backdrop element are also not modelled.
- JavaScript truthiness for values of other types is not modelled:
  - a `null` or undefined event name, on which `mdclean` throws;
  - a `null` description, which destructuring does not default;
  - non-boolean `disabled`;
  - fullscreen, size or backdrop values of other types;
  - object alignment fields whose value is not a string (they never equal `'start'` or `'end'` and are dropped from the map).
  The model's types exclude all of these.
- A property's missing name or description renders as `undefined`, as template interpolation does. Other non-string values are not modelled.
- The `popper` prop's doc comment says the opposite of its default. The model follows the code: `true` enables positioning.
- EventsTemplate.FormatPropertiesEntries: the round trip requires property names, descriptions and type names without line feeds. A line feed inside them adds lines, which `mdclean` later turns into `<br>`.
- EventsTemplate.FormatPropertiesLineFeeds: has the same requirement as the round trip, for the same reason.
- EventsTemplate.MdCleanAppend: requires that the left piece does not end in a carriage return while the right piece starts with a line feed, because that `\r\n` pair is replaced as a unit.
- Modal.DialogClassesExpected: proved only for a valid or absent size. An invalid size such as `dialog-centered` can collide with another key of the class object. The general behaviour, where the last value written wins, is stated by Modal.ObjectClassesMember.

=== FILE: dropdown.dfy ===
/** The dropdown's decision logic (src/components/dropdown/CDropdown.ts):
    prop validation, the placement handed to the positioning library, the
    open/closed state machine driven by toggle, hide and outside
    interactions, the watcher that attaches and detaches the positioning
    handle, and the wrapper's classes.  The DOM is abstracted: whether the
    root element is mounted and whether an event's target lies inside it
    are plain booleans, and the positioning handle is an opaque value. */
module Dropdown {
  import opened Optional

  // ---------------------------------------------------------------------
  // Props and their validators

  /** The breakpoints a responsive alignment may name. */
  const Breakpoints: seq<string> := ["xs", "sm", "md", "lg", "xl", "xxl"]

  /** The `alignment` prop: a string, an object mapping keys to values, or
      `null`.  Object fields whose value is not a string are left out of the
      map: they never compare equal to `'start'` or `'end'`.  Vue lets `null`
      through a prop that is not required without calling its validator. */
  datatype Alignment = AlignText(text: string) | AlignMap(fields: map<string, string>) | AlignNull

  /** The props the decision logic reads.  An absent `alignment` or
      `direction` is `None`; the boolean props are plain booleans. */
  datatype Props = Props(
    alignment: Option<Alignment>,
    direction: Option<string>,
    disabled: bool,
    placement: string,
    popper: bool,
    variant: string,
    visible: bool)

  function IsStartOrEnd(v: string): bool {
    v == "start" || v == "end"
  }

  /** The object has the field `key`, and it is `'start'` or `'end'`. */
  function FieldAligns(m: map<string, string>, key: string): bool {
    key in m && IsStartOrEnd(m[key])
  }

  /** The `alignment` validator: `'start'`, `'end'`, or an object with at
      least one breakpoint field set to one of them.  Other fields are
      ignored, and a string other than the two is rejected (its breakpoint
      fields are all undefined).  It is never called on `null`, on which
      it would throw. */
  function AlignmentValidator(v: Alignment): (ok: bool)
    requires !v.AlignNull?
    ensures ok <==> ((v.AlignText? && IsStartOrEnd(v.text))
                     || (v.AlignMap? && exists k :: k in Breakpoints && FieldAligns(v.fields, k)))
  {
    if v == AlignText("start") || v == AlignText("end") then true
    else
      match v
      case AlignText(_) => false
      case AlignMap(m) =>
        assert forall k :: k in Breakpoints <==> k == "xs" || k == "sm" || k == "md" || k == "lg" || k == "xl" || k == "xxl";
        FieldAligns(m, "xs") || FieldAligns(m, "sm") || FieldAligns(m, "md")
        || FieldAligns(m, "lg") || FieldAligns(m, "xl") || FieldAligns(m, "xxl")
  }

  /** Fields other than the breakpoints never change the verdict. */
  lemma AlignmentIgnoresOtherKeys(m: map<string, string>, key: string, value: string)
    requires key !in Breakpoints
    ensures AlignmentValidator(AlignMap(m[key := value])) == AlignmentValidator(AlignMap(m))
  {
    var m' := m[key := value];
    forall k | k in Breakpoints
      ensures FieldAligns(m', k) == FieldAligns(m, k)
    {
      assert k != key;
    }
  }

  /** The three directions, exactly the ones the placement rule knows. */
  predicate DirectionValidator(v: string) {
    v in ["dropup", "dropend", "dropstart"]
  }

  /** The placements the positioning library accepts. */
  const Placements: seq<string> := [
    "auto", "auto-start", "auto-end",
    "top-end", "top", "top-start",
    "bottom-end", "bottom", "bottom-start",
    "right-start", "right", "right-end",
    "left-start", "left", "left-end"]

  predicate PlacementValidator(v: string) {
    v in Placements
  }

  predicate VariantValidator(v: string) {
    v in ["btn-group", "dropdown", "input-group", "nav-item"]
  }

  const DefaultPlacement := "bottom-start"
  const DefaultVariant := "btn-group"

  /** The defaults of `placement` and `variant` pass their validators. */
  lemma DefaultsValid()
    ensures PlacementValidator(DefaultPlacement)
    ensures VariantValidator(DefaultVariant)
  {
  }

  /** All props pass their validators (absent and `null` ones are not
      validated). */
  predicate ValidProps(p: Props) {
    && (p.alignment.Some? && !p.alignment.value.AlignNull? ==> AlignmentValidator(p.alignment.value))
    && (p.direction.Some? ==> DirectionValidator(p.direction.value))
    && PlacementValidator(p.placement)
    && VariantValidator(p.variant)
  }

  // ---------------------------------------------------------------------
  // Placement

  /** `typeof` reports the alignment as an object: it is responsive, or it
      is `null`.  Either way positioning is disabled. */
  predicate Responsive(p: Props) {
    p.alignment.Some? && (p.alignment.value.AlignMap? || p.alignment.value.AlignNull?)
  }

  /** The placement computed once in `setup`: the `placement` prop, replaced
      by the direction's placement, and by `'bottom-end'` for end alignment,
      each test overriding the ones before it. */
  function InitialPlacement(p: Props): (r: string)
    ensures p.alignment == Some(AlignText("end")) ==> r == "bottom-end"
    ensures p.alignment != Some(AlignText("end")) ==>
      r == (if p.direction == Some("dropup") then "top-start"
            else if p.direction == Some("dropend") then "right-start"
            else if p.direction == Some("dropstart") then "left-start"
            else p.placement)
    ensures PlacementValidator(p.placement) ==> PlacementValidator(r)
  {
    var r0 := p.placement;
    var r1 := if p.direction == Some("dropup") then "top-start" else r0;
    var r2 := if p.direction == Some("dropend") then "right-start" else r1;
    var r3 := if p.direction == Some("dropstart") then "left-start" else r2;
    if p.alignment == Some(AlignText("end")) then "bottom-end" else r3
  }

  /** With an empty `placement` prop and no end alignment, the computed
      placement is non-empty exactly when the direction is one the
      validator accepts: those three, and only those, override the prop. */
  lemma DirectionOverrides(p: Props)
    requires p.alignment != Some(AlignText("end"))
    ensures (p.direction.Some? && DirectionValidator(p.direction.value))
            <==> InitialPlacement(p.(placement := "")) != ""
  {
  }

  /** The positioning library is handed a placement it accepts exactly when
      the `placement` prop is one, or when end alignment or a valid
      direction replaces it. */
  lemma PlacementReachesPopper(p: Props)
    ensures PlacementValidator(InitialPlacement(p))
            <==> (|| PlacementValidator(p.placement)
                  || p.alignment == Some(AlignText("end"))
                  || (p.direction.Some? && DirectionValidator(p.direction.value)))
  {
  }

  // ---------------------------------------------------------------------
  // Visibility state machine

  /** A live positioning binding, created with the given placement. */
  datatype Handle = Handle(placement: string)

  /** The shared `visible` flag and the current positioning handle. */
  datatype State = State(visible: bool, popper: Option<Handle>)

  /** The state right after `setup`: `visible` from the prop, no handle
      (the watcher only runs on later changes). */
  function Init(p: Props): (s: State)
    ensures s.visible == p.visible && s.popper.None?
  {
    State(p.visible, None)
  }

  /** `toggleMenu`: flips `visible` unless the dropdown is disabled. */
  function ToggleMenu(p: Props, s: State): (r: State)
    ensures !p.disabled ==> r.visible == !s.visible
    ensures p.disabled ==> r == s
    ensures r.popper == s.popper
  {
    if !p.disabled then
      if s.visible then s.(visible := false) else s.(visible := true)
    else s
  }

  /** `hideMenu`: closes the menu unless the dropdown is disabled. */
  function HideMenu(p: Props, s: State): (r: State)
    ensures !p.disabled ==> !r.visible
    ensures p.disabled ==> r == s
    ensures r.popper == s.popper
  {
    if !p.disabled then s.(visible := false) else s
  }

  datatype InteractionKind = Click | KeyUp

  /** A window-level click or key release; `targetInside` says whether the
      dropdown's root element contains the event's target. */
  datatype Interaction = Interaction(kind: InteractionKind, targetInside: bool)

  /** `handleClickOutside` and `handleKeyup`: both hide the menu when the
      root element exists and the target is outside it. */
  function HandleInteraction(p: Props, mounted: bool, s: State, ev: Interaction): (r: State)
    ensures mounted && !ev.targetInside ==> r == HideMenu(p, s)
    ensures !mounted || ev.targetInside ==> r == s
  {
    if mounted && !ev.targetInside then HideMenu(p, s) else s
  }

  /** `initPopper`: does nothing under responsive alignment or before the
      root element exists; otherwise creates a handle (replacing any). */
  function InitPopper(p: Props, mounted: bool, s: State): (r: State)
    ensures r.visible == s.visible
    ensures Responsive(p) || !mounted ==> r == s
    ensures !Responsive(p) && mounted ==> r.popper == Some(Handle(InitialPlacement(p)))
  {
    if Responsive(p) then s
    else if mounted then s.(popper := Some(Handle(InitialPlacement(p))))
    else s
  }

  /** `destroyPopper`: releases the handle if there is one. */
  function DestroyPopper(s: State): (r: State)
    ensures r.popper.None? && r.visible == s.visible
  {
    s.(popper := None)
  }

  /** The watcher on `visible`: with positioning enabled, attach on open
      and detach on close. */
  function OnVisibleChange(p: Props, mounted: bool, s: State): (r: State)
    ensures r.visible == s.visible
    ensures !p.popper ==> r == s
    ensures p.popper && !s.visible ==> r.popper.None?
    ensures p.popper && s.visible ==> r == InitPopper(p, mounted, s)
  {
    if !p.popper then s
    else if s.visible then InitPopper(p, mounted, s)
    else DestroyPopper(s)
  }

  datatype Action = Toggle | Hide | Interact(ev: Interaction)

  /** One action followed by the watcher, which fires only when `visible`
      actually changed. */
  function Step(p: Props, mounted: bool, s: State, a: Action): (r: State)
    ensures r.visible == (match a
                          case Toggle => ToggleMenu(p, s).visible
                          case Hide => HideMenu(p, s).visible
                          case Interact(ev) => HandleInteraction(p, mounted, s, ev).visible)
  {
    var s1 := match a
      case Toggle => ToggleMenu(p, s)
      case Hide => HideMenu(p, s)
      case Interact(ev) => HandleInteraction(p, mounted, s, ev);
    if s1.visible != s.visible then OnVisibleChange(p, mounted, s1) else s1
  }

  /** A sequence of actions, in order. */
  function Run(p: Props, mounted: bool, s: State, acts: seq<Action>): State
    decreases |acts|
  {
    if acts == [] then s else Run(p, mounted, Step(p, mounted, s, acts[0]), acts[1..])
  }

  // ---------------------------------------------------------------------
  // Properties

  /** Toggling twice restores `visible`; disabled, toggling changes
      nothing. */
  lemma ToggleTwice(p: Props, s: State)
    ensures ToggleMenu(p, ToggleMenu(p, s)) == s
    ensures p.disabled ==> ToggleMenu(p, s) == s
  {
  }

  /** Hiding is idempotent. */
  lemma HideIdempotent(p: Props, s: State)
    ensures HideMenu(p, HideMenu(p, s)) == HideMenu(p, s)
  {
  }

  /** Releasing the handle twice is releasing it once. */
  lemma DestroyIdempotent(s: State)
    ensures DestroyPopper(DestroyPopper(s)) == DestroyPopper(s)
  {
  }

  /** The invariant tying the handle to the state: a handle exists only
      while the menu is open, positioning is enabled and the alignment is
      not responsive, and it was created with the initial placement.  (The
      converse fails on purpose: a dropdown mounted open has no handle until
      it is first closed and reopened.) */
  ghost predicate Consistent(p: Props, s: State) {
    s.popper.Some? ==>
      s.visible && p.popper && !Responsive(p) && s.popper.value == Handle(InitialPlacement(p))
  }

  lemma InitConsistent(p: Props)
    ensures Consistent(p, Init(p))
  {
  }

  lemma StepConsistent(p: Props, mounted: bool, s: State, a: Action)
    requires Consistent(p, s)
    ensures Consistent(p, Step(p, mounted, s, a))
  {
  }

  /** Every reachable state keeps the invariant. */
  lemma {:induction false} RunConsistent(p: Props, mounted: bool, s: State, acts: seq<Action>)
    requires Consistent(p, s)
    ensures Consistent(p, Run(p, mounted, s, acts))
    decreases |acts|
  {
    if acts != [] {
      StepConsistent(p, mounted, s, acts[0]);
      RunConsistent(p, mounted, Step(p, mounted, s, acts[0]), acts[1..]);
    }
  }

  /** Whatever happens after mounting: the handle only exists while open,
      and responsive alignment never gets one. */
  lemma ReachableHandles(p: Props, mounted: bool, acts: seq<Action>)
    ensures Run(p, mounted, Init(p), acts).popper.Some? ==> Run(p, mounted, Init(p), acts).visible
    ensures Responsive(p) ==> Run(p, mounted, Init(p), acts).popper.None?
    ensures !p.popper ==> Run(p, mounted, Init(p), acts).popper.None?
  {
    InitConsistent(p);
    RunConsistent(p, mounted, Init(p), acts);
  }

  /** With positioning enabled, a step that closes the menu leaves no
      handle, and a step that opens it attaches one with the initial
      placement, unless the alignment is responsive or nothing is
      mounted. */
  lemma WatcherEffect(p: Props, mounted: bool, s: State, a: Action)
    requires p.popper
    ensures s.visible && !Step(p, mounted, s, a).visible ==> Step(p, mounted, s, a).popper.None?
    ensures !s.visible && Step(p, mounted, s, a).visible && !Responsive(p) && mounted ==>
      Step(p, mounted, s, a).popper == Some(Handle(InitialPlacement(p)))
    ensures !s.visible && Step(p, mounted, s, a).visible && (Responsive(p) || !mounted) ==>
      Step(p, mounted, s, a).popper == s.popper
  {
  }

  /** The invariant relies on the props staying put.  A step reads
      `popper` afresh, so a parent that switches positioning off while the
      menu is open leaves the handle attached after the menu closes. */
  lemma PopperSwitchedOffWhileOpen()
    ensures var p := Props(None, None, false, DefaultPlacement, true, DefaultVariant, false);
            var open := Step(p, true, Init(p), Toggle);
            var closed := Step(p.(popper := false), true, open, Toggle);
            && open == State(true, Some(Handle("bottom-start")))
            && closed == State(false, Some(Handle("bottom-start")))
            && !Consistent(p.(popper := false), closed)
  {
  }

  /** Toggling a closed, consistent dropdown twice returns it to exactly
      the state it started in, handle included. */
  lemma ToggleTwiceStep(p: Props, mounted: bool, s: State)
    requires Consistent(p, s) && !s.visible
    ensures Run(p, mounted, s, [Toggle, Toggle]) == s
  {
    assert [Toggle, Toggle][1..] == [Toggle];
    assert [Toggle][1..] == [];
  }

  /** Interactions inside the root element, or before it exists, never
      change anything. */
  lemma InsideKeepsState(p: Props, mounted: bool, s: State, ev: Interaction)
    requires ev.targetInside || !mounted
    ensures Step(p, mounted, s, Interact(ev)) == s
  {
  }

  /** An outside click or key release closes an enabled menu. */
  lemma OutsideCloses(p: Props, s: State, ev: Interaction)
    requires !ev.targetInside && !p.disabled
    ensures !Step(p, true, s, Interact(ev)).visible
  {
  }

  /** A disabled dropdown never moves, whatever happens to it. */
  lemma {:induction false} DisabledFrozen(p: Props, mounted: bool, s: State, acts: seq<Action>)
    requires p.disabled
    ensures Run(p, mounted, s, acts) == s
    decreases |acts|
  {
    if acts != [] {
      assert Step(p, mounted, s, acts[0]) == s;
      DisabledFrozen(p, mounted, s, acts[1..]);
    }
  }

  // ---------------------------------------------------------------------
  // Wrapper classes

  /** A class-array entry after Vue's normalisation: empty or absent values
      contribute nothing. */
  function ClassEntry(c: Option<string>): (cs: seq<string>)
    ensures cs == [] <==> c.None? || c.value == ""
  {
    if c.Some? && c.value != "" then [c.value] else []
  }

  /** The class of the wrapper element for a variant. */
  function VariantClass(variant: string): (c: string)
    ensures c == "" <==> variant == ""
    ensures VariantValidator(variant) ==> c in ["btn-group", "dropdown", "input-group", "nav-item dropdown"]
  {
    if variant == "nav-item" then "nav-item dropdown" else variant
  }

  /** The rendered wrapper: none for `'input-group'` (the children are
      rendered bare), otherwise a `div` with the variant's class followed by
      the direction. */
  function WrapperClasses(p: Props): (r: Option<seq<string>>)
    ensures r.None? <==> p.variant == "input-group"
    ensures r.Some? ==> forall i :: 0 <= i < |r.value| ==> r.value[i] != ""
  {
    if p.variant == "input-group" then None
    else Some(ClassEntry(Some(VariantClass(p.variant))) + ClassEntry(p.direction))
  }

  /** For valid props the wrapper is absent exactly for `'input-group'`;
      otherwise its first class is `'nav-item dropdown'` for `'nav-item'` and
      the variant itself for the others, and the direction, when given, is
      its second and last class. */
  lemma WrapperShape(p: Props)
    requires ValidProps(p)
    ensures p.variant == "input-group" ==> WrapperClasses(p).None?
    ensures p.variant != "input-group" ==>
      && WrapperClasses(p).Some?
      && |WrapperClasses(p).value| == (if p.direction.Some? then 2 else 1)
      && WrapperClasses(p).value[0] == (if p.variant == "nav-item" then "nav-item dropdown" else p.variant)
      && (p.direction.Some? ==> WrapperClasses(p).value[1] == p.direction.value)
  {
  }

  /** For a valid variant the wrapper, when there is one, is classed as a
      button group, a plain dropdown or a navigation dropdown. */
  lemma VariantWrapper(p: Props)
    requires VariantValidator(p.variant)
    ensures WrapperClasses(p).Some? ==> WrapperClasses(p).value[0] in ["btn-group", "dropdown", "nav-item dropdown"]
  {
  }
}

=== FILE: events_template.dfy ===
/** The documentation generator's events template: it turns a component's
    list of event descriptors into a markdown table with one row per event
    (build/templates/events.js).  Every regular expression of events.js is
    written out as a recursion over characters. */
module EventsTemplate {
  import opened Optional
  import opened Text

  /** The `type` field of a documented property: its type names. */
  datatype PropType = PropType(names: seq<string>)

  /** One entry of an event's `properties` list.  A missing `name` or
      `description` is `None`; a missing `type` is `None` as well. */
  datatype Property = Property(name: Option<string>, description: Option<string>, propType: Option<PropType>)

  /** An event descriptor.  The name is always present (the template calls
      `replace` on it); description and properties may be missing. */
  datatype Event = Event(name: string, description: Option<string>, properties: Option<seq<Property>>)

  /** The second argument of the exported builder. */
  datatype HeaderOptions = HeaderOptions(isSubComponent: bool, hasSubComponents: bool)

  // ---------------------------------------------------------------------
  // mdclean

  /** No pipe of `s` stands bare: each one comes right after a backslash.
      `afterBackslash` says whether the character before `s` is one. */
  predicate EscapedAfter(s: string, afterBackslash: bool)
  {
    s == [] || ((s[0] == '|' ==> afterBackslash) && EscapedAfter(s[1..], s[0] == '\\'))
  }

  /** Every `'|'` of `s` is immediately preceded by a backslash. */
  predicate PipesEscaped(s: string) {
    EscapedAfter(s, false)
  }

  /** The recursive reading agrees with the positional one: every pipe at
      index i > 0 has a backslash at i - 1, and one at index 0 is allowed
      only after a backslash. */
  lemma {:induction false} EscapedAfterIndex(s: string, b: bool)
    ensures EscapedAfter(s, b) <==>
      forall i {:trigger s[i]} :: 0 <= i < |s| && s[i] == '|' ==> if i == 0 then b else s[i - 1] == '\\'
  {
    if s != [] {
      EscapedAfterIndex(s[1..], s[0] == '\\');
      var t := s[1..];
      assert forall i :: 1 <= i < |s| ==> s[i] == t[i - 1];
    }
  }

  /** Escaping is the weaker demand after a backslash. */
  lemma EscapedAfterMono(s: string)
    requires EscapedAfter(s, false)
    ensures EscapedAfter(s, true)
  {
  }

  /** Escaped pieces stay escaped when put side by side. */
  lemma {:induction false} EscapedAppend(a: string, b: string, f: bool)
    requires EscapedAfter(a, f)
    requires EscapedAfter(b, if a == [] then f else a[|a| - 1] == '\\')
    ensures EscapedAfter(a + b, f)
  {
    if a == [] {
      assert a + b == b;
    } else {
      assert (a + b)[1..] == a[1..] + b;
      EscapedAppend(a[1..], b, a[0] == '\\');
    }
  }

  /** The first replacement of mdclean, `/\r?\n/g -> "<br>"`: a `"\r\n"` pair
      or a lone `'\n'` becomes `"<br>"`, scanning left to right; a `'\r'` not
      followed by `'\n'` is kept. */
  function BreakLines(s: string): (r: string)
    ensures '\n' !in r
  {
    if s == [] then ""
    else if |s| >= 2 && s[0] == '\r' && s[1] == '\n' then "<br>" + BreakLines(s[2..])
    else if s[0] == '\n' then "<br>" + BreakLines(s[1..])
    else [s[0]] + BreakLines(s[1..])
  }

  /** The second replacement of mdclean, `/\|/g -> "\\|"`. */
  function EscapePipes(s: string): (r: string)
    ensures PipesEscaped(r)
    ensures '\n' in r <==> '\n' in s
  {
    if s == [] then ""
    else
      var rest := EscapePipes(s[1..]);
      if s[0] == '|' then
        var r := "\\|" + rest;
        assert r[1..] == "|" + rest && r[1..][1..] == rest;
        r
      else
        var r := [s[0]] + rest;
        assert r[1..] == rest;
        EscapedAfterMono(rest);
        r
  }

  /** Every pipe in mdclean's output is immediately preceded by a
      backslash. */
  lemma MdCleanEscapes(s: string)
    ensures forall i {:trigger MdClean(s)[i]} :: 0 <= i < |MdClean(s)| && MdClean(s)[i] == '|' ==> 0 < i && MdClean(s)[i - 1] == '\\'
  {
    EscapedAfterIndex(MdClean(s), false);
  }

  /** `mdclean`: makes a string safe for one markdown table cell. */
  function MdClean(s: string): (r: string)
    ensures '\n' !in r
    ensures PipesEscaped(r)
  {
    EscapePipes(BreakLines(s))
  }

  lemma {:induction false} BreakLinesPipes(s: string)
    ensures Count(BreakLines(s), '|') == Count(s, '|')
  {
    if s == [] {
    } else if |s| >= 2 && s[0] == '\r' && s[1] == '\n' {
      BreakLinesPipes(s[2..]);
      CountAppend("<br>", BreakLines(s[2..]), '|');
      assert Count(s, '|') == Count(s[1..], '|');
      assert s[1..][1..] == s[2..];
    } else if s[0] == '\n' {
      BreakLinesPipes(s[1..]);
      CountAppend("<br>", BreakLines(s[1..]), '|');
    } else {
      BreakLinesPipes(s[1..]);
      CountAppend([s[0]], BreakLines(s[1..]), '|');
    }
  }

  lemma {:induction false} EscapePipesCount(s: string)
    ensures Count(EscapePipes(s), '|') == Count(s, '|')
  {
    if s != [] {
      EscapePipesCount(s[1..]);
      if s[0] == '|' {
        CountAppend("\\|", EscapePipes(s[1..]), '|');
      } else {
        CountAppend([s[0]], EscapePipes(s[1..]), '|');
      }
    }
  }

  /** mdclean keeps the number of pipe characters: it escapes them, it never
      drops or adds one. */
  lemma MdCleanPipeCount(s: string)
    ensures Count(MdClean(s), '|') == Count(s, '|')
  {
    BreakLinesPipes(s);
    EscapePipesCount(BreakLines(s));
  }

  /** mdclean changes nothing in a string with no line feed and no pipe. */
  lemma {:induction false} MdCleanIdentity(s: string)
    requires '\n' !in s && '|' !in s
    ensures MdClean(s) == s
  {
    if s != [] {
      MdCleanIdentity(s[1..]);
      assert [s[0]] + s[1..] == s;
    }
  }

  /** No `"\r\n"` pair straddles the cut between `a` and `b`. */
  predicate NoPairAcross(a: string, b: string) {
    !(a != [] && a[|a| - 1] == '\r' && b != [] && b[0] == '\n')
  }

  /** A carriage return not followed by a line feed is kept. */
  lemma BreakLinesLoneReturn(b: string)
    requires b == [] || b[0] != '\n'
    ensures BreakLines("\r" + b) == "\r" + BreakLines(b)
    ensures BreakLines("\r") == "\r"
  {
    var rb := "\r" + b;
    assert rb[0] == '\r' && rb[1..] == b;
    assert "\r"[1..] == [];
  }

  /** One step of BreakLines: when the front `k` characters of `a` are
      replaced by `head` both in `a` and in `a + b`, the split of the rest
      carries over to the whole. */
  lemma BreakLinesFront(a: string, b: string, k: nat, head: string)
    requires k <= |a|
    requires BreakLines(a) == head + BreakLines(a[k..])
    requires BreakLines(a + b) == head + BreakLines(a[k..] + b)
    requires BreakLines(a[k..] + b) == BreakLines(a[k..]) + BreakLines(b)
    ensures BreakLines(a + b) == BreakLines(a) + BreakLines(b)
  {
  }

  lemma {:induction false} BreakLinesAppend(a: string, b: string)
    requires NoPairAcross(a, b)
    ensures BreakLines(a + b) == BreakLines(a) + BreakLines(b)
  {
    var ab := a + b;
    if a == [] {
      assert ab == b;
    } else if |a| == 1 && a[0] == '\r' {
      assert a == "\r";
      BreakLinesLoneReturn(b);
    } else if |a| >= 2 && a[0] == '\r' && a[1] == '\n' {
      assert ab[0] == '\r' && ab[1] == '\n' && ab[2..] == a[2..] + b;
      assert NoPairAcross(a[2..], b) by {
        if a[2..] != [] { assert a[2..][|a[2..]| - 1] == a[|a| - 1]; }
      }
      BreakLinesAppend(a[2..], b);
      BreakLinesFront(a, b, 2, "<br>");
    } else {
      assert ab[0] == a[0] && ab[1..] == a[1..] + b;
      assert !(|ab| >= 2 && ab[0] == '\r' && ab[1] == '\n') by {
        if |a| >= 2 { assert ab[1] == a[1]; }
      }
      assert NoPairAcross(a[1..], b) by {
        if a[1..] != [] { assert a[1..][|a[1..]| - 1] == a[|a| - 1]; }
      }
      BreakLinesAppend(a[1..], b);
      BreakLinesFront(a, b, 1, if a[0] == '\n' then "<br>" else [a[0]]);
    }
  }

  lemma {:induction false} EscapePipesAppend(a: string, b: string)
    ensures EscapePipes(a + b) == EscapePipes(a) + EscapePipes(b)
  {
    if a == [] {
      assert a + b == b;
    } else {
      assert (a + b)[1..] == a[1..] + b;
      EscapePipesAppend(a[1..], b);
    }
  }

  /** mdclean works piecewise: it distributes over every concatenation
      except one that cuts a `"\r\n"` pair in two. */
  lemma MdCleanAppend(a: string, b: string)
    requires NoPairAcross(a, b)
    ensures MdClean(a + b) == MdClean(a) + MdClean(b)
  {
    BreakLinesAppend(a, b);
    EscapePipesAppend(BreakLines(a), BreakLines(b));
  }

  /** Together with MdCleanAppend these pin mdclean down completely: a
      `"\r\n"` pair and a lone line feed both become `"<br>"`, a pipe becomes
      `"\|"`, a lone carriage return and every other character stay. */
  lemma MdCleanTokens(c: char)
    ensures MdClean("\r\n") == "<br>"
    ensures MdClean("\n") == "<br>"
    ensures MdClean("|") == "\\|"
    ensures c != '\n' && c != '|' ==> MdClean([c]) == [c]
  {
    assert [c][1..] == [];
    assert "\r\n"[2..] == [];
    assert "\n"[1..] == [];
    assert "|"[1..] == [];
  }

  // ---------------------------------------------------------------------
  // formatProperties

  /** JavaScript's template interpolation of a possibly undefined string. */
  function Interpolate(v: Option<string>): string {
    v.OrElse("undefined")
  }

  /** The text between the backticks: the type names joined by `", "`, or
      nothing when there are none. */
  function TypeList(t: PropType): string {
    if |t.names| > 0 then Join(t.names, ", ") else ""
  }

  /** One property's entry: ``**name** `t1, t2` - description``, or the empty
      string for a property without a type. */
  function FormatProperty(p: Property): (e: string)
    ensures e == "" <==> p.propType.None?
  {
    match p.propType
    case None => ""
    case Some(t) => "**" + Interpolate(p.name) + "** `" + TypeList(t) + "` - " + Interpolate(p.description)
  }

  /** The entries of a property list, in order. */
  function Entries(ps: seq<Property>): (es: seq<string>)
    ensures |es| == |ps|
  {
    seq(|ps|, i requires 0 <= i < |ps| => FormatProperty(ps[i]))
  }

  /** `formatProperties`: nothing for a missing list, otherwise the entries
      separated by line feeds. */
  function FormatProperties(ps: Option<seq<Property>>): (text: string)
    ensures ps.None? ==> text == ""
    ensures ps == Some([]) ==> text == ""
  {
    match ps
    case None => ""
    case Some(list) => Join(Entries(list), "\n")
  }

  /** No field that ends up in the property's entry holds a line feed. */
  ghost predicate SingleLine(p: Property) {
    && '\n' !in Interpolate(p.name)
    && '\n' !in Interpolate(p.description)
    && (p.propType.Some? ==> forall k :: 0 <= k < |p.propType.value.names| ==> '\n' !in p.propType.value.names[k])
  }

  lemma {:induction false} JoinAvoids(xs: seq<string>, sep: string, c: char)
    requires c !in sep
    requires forall i :: 0 <= i < |xs| ==> c !in xs[i]
    ensures c !in Join(xs, sep)
  {
    if |xs| > 1 {
      JoinAvoids(xs[1..], sep, c);
    }
  }

  /** The shape of one entry: empty exactly when the property has no type;
      otherwise bold name, code span of the type names (empty backticks when
      there are none), a dash and the description. */
  lemma EntryShape(p: Property)
    ensures FormatProperty(p) == "" <==> p.propType.None?
    ensures p.propType.Some? ==>
      && StartsWith(FormatProperty(p), "**" + Interpolate(p.name) + "** `")
      && EndsWith(FormatProperty(p), "` - " + Interpolate(p.description))
    ensures p.propType.Some? && |p.propType.value.names| > 0 ==>
      var e := FormatProperty(p);
      var pre := "**" + Interpolate(p.name) + "** `";
      var post := "` - " + Interpolate(p.description);
      && |e| == |pre| + |Join(p.propType.value.names, ", ")| + |post|
      && e[|pre|..|e| - |post|] == Join(p.propType.value.names, ", ")
    ensures p.propType == Some(PropType([])) ==>
      FormatProperty(p) == "**" + Interpolate(p.name) + "** `` - " + Interpolate(p.description)
    ensures SingleLine(p) ==> '\n' !in FormatProperty(p)
  {
    if p.propType.Some? {
      var e := FormatProperty(p);
      var pre := "**" + Interpolate(p.name) + "** `";
      var post := "` - " + Interpolate(p.description);
      assert e == pre + TypeList(p.propType.value) + post;
      assert e[..|pre|] == pre;
      assert e[|e| - |post|..] == post;
      assert e[|pre|..|e| - |post|] == TypeList(p.propType.value);
      if SingleLine(p) && |p.propType.value.names| > 0 {
        JoinAvoids(p.propType.value.names, ", ", '\n');
      }
    }
  }

  /** formatProperties gives exactly one line-feed separated entry per
      property, in order, as long as no field itself holds a line feed. */
  lemma FormatPropertiesEntries(ps: seq<Property>)
    requires |ps| > 0
    requires forall i :: 0 <= i < |ps| ==> SingleLine(ps[i])
    ensures Split(FormatProperties(Some(ps)), '\n') == Entries(ps)
  {
    var es := Entries(ps);
    forall i | 0 <= i < |es|
      ensures '\n' !in es[i]
    {
      EntryShape(ps[i]);
    }
    SplitJoin(es, '\n');
  }

  /** So the rendered list holds one line feed fewer than there are
      properties. */
  lemma FormatPropertiesLineFeeds(ps: seq<Property>)
    requires |ps| > 0
    requires forall i :: 0 <= i < |ps| ==> SingleLine(ps[i])
    ensures Count(FormatProperties(Some(ps)), '\n') == |ps| - 1
  {
    var es := Entries(ps);
    forall i | 0 <= i < |es|
      ensures '\n' !in es[i]
    {
      EntryShape(ps[i]);
    }
    JoinCount(es, '\n');
  }

  // ---------------------------------------------------------------------
  // tmpl

  /** The description cell's raw text: the destructuring default `''`. */
  function DescriptionText(e: Event): string {
    e.description.OrElse("")
  }

  /** The properties cell's raw text. */
  function PropertiesText(e: Event): string {
    if e.properties.Some? then FormatProperties(e.properties) else ""
  }

  /** The row layout around three already cleaned cell texts: a leading
      separator, the name in a code span, the properties and the
      description, each cell padded by a space. */
  function TableRow(name: string, props: string, desc: string): string {
    "|" + (CodeCell(name) + ("|" + (PaddedCell(props) + ("|" + LastCell(desc)))))
  }

  function CodeCell(name: string): string { " <code>" + name + "</code> " }

  function PaddedCell(text: string): string { " " + text + " " }

  function LastCell(text: string): string { " " + text }

  /** One table row without its terminating line feed. */
  function RowText(e: Event): (row: string)
    ensures '\n' !in row
  {
    TableRow(MdClean(e.name), MdClean(PropertiesText(e)), MdClean(DescriptionText(e)))
  }

  /** The rows, one per event, in order. */
  function Rows(evs: seq<Event>): (rows: seq<string>)
    ensures |rows| == |evs|
    ensures forall i :: 0 <= i < |rows| ==> '\n' !in rows[i]
  {
    seq(|evs|, i requires 0 <= i < |evs| => RowText(evs[i]))
  }

  /** Each line followed by a line feed, in order. */
  function Terminated(lines: seq<string>): string {
    if lines == [] then "" else lines[0] + "\n" + Terminated(lines[1..])
  }

  /** `tmpl`: every event's row followed by a line feed, in order. */
  function Tmpl(evs: seq<Event>): (r: string)
    ensures r == "" <==> evs == []
  {
    Terminated(Rows(evs))
  }

  lemma TerminatedCons(lines: seq<string>, tail: string)
    requires lines != []
    ensures Terminated(lines) + tail == lines[0] + ['\n'] + (Terminated(lines[1..]) + tail)
  {
  }

  /** Terminated lines split back into those lines, and what follows them
      keeps its own line structure. */
  lemma {:induction false} TerminatedThen(lines: seq<string>, tail: string)
    requires forall i :: 0 <= i < |lines| ==> '\n' !in lines[i]
    ensures Split(Terminated(lines) + tail, '\n') == lines + Split(tail, '\n')
  {
    if lines == [] {
      assert Terminated(lines) + tail == tail;
    } else {
      var first, rest := lines[0], lines[1..];
      var more := Terminated(rest) + tail;
      assert forall i :: 0 <= i < |rest| ==> '\n' !in rest[i] by {
        forall i | 0 <= i < |rest|
          ensures '\n' !in rest[i]
        {
          assert rest[i] == lines[i + 1];
        }
      }
      calc {
        Split(Terminated(lines) + tail, '\n');
      == { TerminatedCons(lines, tail); }
        Split(first + ['\n'] + more, '\n');
      == { SplitPrefix(first, '\n', more); }
        [first] + Split(more, '\n');
      == { TerminatedThen(rest, tail); }
        [first] + (rest + Split(tail, '\n'));
      == { assert lines == [first] + rest; }
        lines + Split(tail, '\n');
      }
    }
  }

  lemma RowStart(e: Event)
    ensures StartsWith(RowText(e), "| <code>")
  {
    var n := MdClean(e.name);
    var c := CodeCell(n);
    assert StartsWith(c, " <code>") by {
      StartsWithAppend(" <code>", n, " <code>");
      StartsWithAppend(" <code>" + n, "</code> ", " <code>");
    }
    assert ("|" + c)[..8] == "|" + c[..7];
    var p := PaddedCell(MdClean(PropertiesText(e)));
    StartsWithAppend("|" + c, "|", "| <code>");
    StartsWithAppend("|" + c + "|", p, "| <code>");
    StartsWithAppend("|" + c + "|" + p, "|", "| <code>");
    StartsWithAppend("|" + c + "|" + p + "|", LastCell(MdClean(DescriptionText(e))), "| <code>");
  }

  /** tmpl emits exactly one line per event: splitting its output on line
      feeds gives the rows in order and then the empty text after the last
      terminator, so it holds exactly one line feed per event.  Every row
      starts with `"| <code>"`, and no events give no text at all. */
  lemma TmplLines(evs: seq<Event>)
    ensures Split(Tmpl(evs), '\n') == Rows(evs) + [""]
    ensures Count(Tmpl(evs), '\n') == |evs|
    ensures forall i :: 0 <= i < |evs| ==> StartsWith(Rows(evs)[i], "| <code>")
    ensures evs == [] ==> Tmpl(evs) == ""
  {
    TerminatedThen(Rows(evs), "");
    assert Tmpl(evs) + "" == Tmpl(evs);
    SplitShape(Tmpl(evs), '\n');
    forall i | 0 <= i < |evs|
      ensures StartsWith(Rows(evs)[i], "| <code>")
    {
      RowStart(evs[i]);
    }
  }

  // ---------------------------------------------------------------------
  // Markdown cells

  /** Markdown's cell split: the pieces between pipes that are not escaped
      by a preceding backslash.  `afterBackslash` says whether the character
      before `s` was a backslash. */
  function Cells(s: string, afterBackslash: bool): (cells: seq<string>)
    ensures |cells| > 0
  {
    if s == [] then [""]
    else if s[0] == '|' && !afterBackslash then [""] + Cells(s[1..], false)
    else
      var rest := Cells(s[1..], s[0] == '\\');
      [[s[0]] + rest[0]] + rest[1..]
  }

  lemma {:induction false} CellsWhole(x: string, b: bool)
    requires EscapedAfter(x, b)
    ensures Cells(x, b) == [x]
  {
    if x != [] {
      CellsWhole(x[1..], x[0] == '\\');
      assert [x[0]] + x[1..] == x;
    }
  }

  lemma {:induction false} CellsPrefix(x: string, b: bool, rest: string)
    requires EscapedAfter(x, b)
    requires if x == [] then !b else x[|x| - 1] != '\\'
    ensures Cells(x + ("|" + rest), b) == [x] + Cells(rest, false)
  {
    if x == [] {
      assert x + ("|" + rest) == "|" + rest;
      assert ("|" + rest)[1..] == rest;
    } else {
      var s := x + ("|" + rest);
      assert s[1..] == x[1..] + ("|" + rest);
      CellsPrefix(x[1..], x[0] == '\\', rest);
      assert [x[0]] + x[1..] == x;
    }
  }

  /** A text without pipes is escaped whatever precedes it. */
  lemma {:induction false} NoPipeEscaped(s: string, b: bool)
    requires '|' !in s
    ensures EscapedAfter(s, b)
  {
    if s != [] {
      assert forall c :: c in s[1..] ==> c in s;
      NoPipeEscaped(s[1..], s[0] == '\\');
    }
  }

  /** An escaped text between two pads without pipes stays escaped. */
  lemma PaddedEscaped(pre: string, x: string, post: string)
    requires '|' !in pre && '|' !in post
    requires PipesEscaped(x)
    ensures EscapedAfter(pre + x + post, false)
  {
    NoPipeEscaped(pre, false);
    NoPipeEscaped(post, false);
    NoPipeEscaped(post, true);
    EscapedAfterMono(x);
    EscapedAppend(pre, x, false);
    EscapedAppend(pre + x, post, false);
  }

  /** A row made of a leading separator and three escaped cells, none
      ending in a backslash, splits back into those cells. */
  lemma {:induction false} ThreeCells(c1: string, c2: string, c3: string)
    requires EscapedAfter(c1, false) && EscapedAfter(c2, false) && EscapedAfter(c3, false)
    requires c1 != [] && c1[|c1| - 1] != '\\'
    requires c2 != [] && c2[|c2| - 1] != '\\'
    ensures Cells("|" + (c1 + ("|" + (c2 + ("|" + c3)))), false) == ["", c1, c2, c3]
  {
    var r1 := "|" + (c2 + ("|" + c3));
    calc {
      Cells("|" + (c1 + r1), false);
    == { assert [] + ("|" + (c1 + r1)) == "|" + (c1 + r1);
         CellsPrefix([], false, c1 + r1); }
      [""] + Cells(c1 + r1, false);
    == { CellsPrefix(c1, false, c2 + ("|" + c3)); }
      [""] + ([c1] + Cells(c2 + ("|" + c3), false));
    == { CellsPrefix(c2, false, c3); }
      [""] + ([c1] + ([c2] + Cells(c3, false)));
    == { CellsWhole(c3, false); }
      [""] + ([c1] + ([c2] + [c3]));
    ==
      ["", c1, c2, c3];
    }
  }

  /** With escaped cell texts the row layout has exactly three cells after
      the leading empty piece. */
  lemma TableRowCells(n: string, p: string, d: string)
    requires PipesEscaped(n) && PipesEscaped(p) && PipesEscaped(d)
    ensures Cells(TableRow(n, p, d), false) == ["", CodeCell(n), PaddedCell(p), LastCell(d)]
  {
    assert EscapedAfter(CodeCell(n), false) by {
      PaddedEscaped(" <code>", n, "</code> ");
    }
    assert EscapedAfter(PaddedCell(p), false) by {
      PaddedEscaped(" ", p, " ");
    }
    assert EscapedAfter(LastCell(d), false) by {
      PaddedEscaped(" ", d, "");
      assert LastCell(d) == " " + d + "";
    }
    ThreeCells(CodeCell(n), PaddedCell(p), LastCell(d));
  }

  /** Table safety: whatever an event's name, properties and description
      hold, its row splits into exactly the leading empty piece and the
      three cells, each holding the cleaned text.  So a missing description
      gives an empty description cell and a missing property list an empty
      properties cell. */
  lemma RowCells(e: Event)
    ensures Cells(RowText(e), false) == [
      "",
      CodeCell(MdClean(e.name)),
      PaddedCell(MdClean(PropertiesText(e))),
      LastCell(MdClean(DescriptionText(e)))]
    ensures e.description.None? ==> Cells(RowText(e), false)[3] == " "
    ensures e.properties.None? ==> Cells(RowText(e), false)[2] == "  "
  {
    TableRowCells(MdClean(e.name), MdClean(PropertiesText(e)), MdClean(DescriptionText(e)));
    MdCleanIdentity("");
  }

  // ---------------------------------------------------------------------
  // The exported builder

  /** The section heading: one level deeper for sub-components and for
      components that have sub-components. */
  function Heading(opt: HeaderOptions): (h: string)
    ensures h == seq(if opt.isSubComponent || opt.hasSubComponents then 5 else 4, _ => '#') + " Events"
  {
    (if opt.isSubComponent || opt.hasSubComponents then "#" else "") + "#### Events"
  }

  /** The column titles and the rule under them. */
  const TitleLine := "  | Event " + "name     " + "| Prope" + "rties     " + "| Descr" + "iption  |"
  const RuleLine := "  | -----" + "--------- " + "|------" + "--------- " + "| -----" + "--------|"

  /** Everything before the rows: an empty first line, the heading, an
      empty line, the column titles and the rule line. */
  function Preamble(opt: HeaderOptions): string {
    Terminated(["", Heading(opt), "", TitleLine, RuleLine])
  }

  /** The table body: the rows indented by two spaces, and a two-space
      closing line. */
  function Body(evs: seq<Event>): string {
    "  " + Tmpl(evs) + "\n  "
  }

  /** Terminated lines, whatever follows them, start with their first two
      lines and line feeds. */
  lemma TerminatedStart(lines: seq<string>, tail: string)
    requires |lines| >= 2
    ensures StartsWith(Terminated(lines) + tail, lines[0] + "\n" + lines[1] + "\n")
  {
    TerminatedCons(lines, tail);
    TerminatedCons(lines[1..], tail);
    assert lines[1..][1..] == lines[2..];
    TwoLinesStart(lines[0], lines[1], Terminated(lines[2..]) + tail);
  }

  /** Two lines, each followed by a line feed, open whatever comes after
      them. */
  lemma TwoLinesStart(a: string, b: string, rest: string)
    ensures StartsWith(a + ['\n'] + (b + ['\n'] + rest), a + "\n" + b + "\n")
  {
    assert a + ['\n'] + (b + ['\n'] + rest) == (a + "\n" + b + "\n") + rest;
  }


  /** The whole events section, as the exported builder returns it. */
  function Document(evs: seq<Event>, opt: HeaderOptions): (d: string)
    ensures StartsWith(d, "\n" + Heading(opt) + "\n")
    ensures EndsWith(d, "\n  ")
  {
    var b := Body(evs);
    var d := Preamble(opt) + b;
    assert StartsWith(d, "\n" + Heading(opt) + "\n") by {
      TerminatedStart(["", Heading(opt), "", TitleLine, RuleLine], b);
    }
    assert EndsWith(d, "\n  ") by {
      assert b[|b| - 3..] == "\n  ";
      assert d[|d| - 3..] == b[|b| - 3..];
    }
    d
  }

  /** Number of leading `'#'` characters. */
  function LeadingHashes(s: string): (n: nat)
    ensures n <= |s|
  {
    if s != [] && s[0] == '#' then 1 + LeadingHashes(s[1..]) else 0
  }

  lemma {:induction false} LeadingHashesPrefix(n: nat, rest: string)
    requires rest == [] || rest[0] != '#'
    ensures LeadingHashes(seq(n, _ => '#') + rest) == n
  {
    if n > 0 {
      assert (seq(n, _ => '#') + rest)[1..] == seq(n - 1, _ => '#') + rest;
      LeadingHashesPrefix(n - 1, rest);
    } else {
      assert seq(n, _ => '#') + rest == rest;
    }
  }

  /** The heading is a level-5 heading (`#####`) when either option is set
      and a level-4 heading (`####`) otherwise. */
  lemma HeadingLevel(opt: HeaderOptions)
    ensures LeadingHashes(Heading(opt)) == if opt.isSubComponent || opt.hasSubComponents then 5 else 4
  {
    if opt.isSubComponent || opt.hasSubComponents {
      assert Heading(opt) == seq(5, _ => '#') + " Events";
      LeadingHashesPrefix(5, " Events");
    } else {
      assert Heading(opt) == seq(4, _ => '#') + " Events";
      LeadingHashesPrefix(4, " Events");
    }
  }

  lemma PreambleLines(opt: HeaderOptions, rest: string)
    ensures Split(Preamble(opt) + rest, '\n') == ["", Heading(opt), "", TitleLine, RuleLine] + Split(rest, '\n')
  {
    var lines := ["", Heading(opt), "", TitleLine, RuleLine];
    assert forall i :: 0 <= i < |lines| ==> '\n' !in lines[i];
    TerminatedThen(lines, rest);
  }

  lemma BodyLines(lines: seq<string>, pad: string)
    requires forall i :: 0 <= i < |lines| ==> '\n' !in lines[i]
    requires '\n' !in pad
    ensures Split(pad + Terminated(lines) + ['\n'] + pad, '\n') == [pad + (lines + [""])[0]] + (lines + [""])[1..] + [pad]
  {
    var t := Terminated(lines);
    var tail := ['\n'] + pad;
    var ls := lines + [""];
    assert Split(t + tail, '\n') == ls + [pad] by {
      assert Split(tail, '\n') == ["", pad] by {
        assert tail == [] + ['\n'] + pad;
        SplitPrefix([], '\n', pad);
        SplitNone(pad, '\n');
      }
      TerminatedThen(lines, tail);
      assert lines + ["", pad] == ls + [pad];
    }
    calc {
      Split(pad + t + ['\n'] + pad, '\n');
    == { assert pad + t + ['\n'] + pad == pad + (t + tail); }
      Split(pad + (t + tail), '\n');
    == { SplitPad(pad, t + tail, '\n'); }
      [pad + (ls + [pad])[0]] + (ls + [pad])[1..];
    == { assert (ls + [pad])[0] == ls[0];
         assert (ls + [pad])[1..] == ls[1..] + [pad]; }
      [pad + ls[0]] + (ls[1..] + [pad]);
    ==
      [pad + ls[0]] + ls[1..] + [pad];
    }
  }

  /** The lines of the table body: the first row indented by two spaces,
      the other rows, an empty line and the two-space closing line; with no
      events, the lone indentation and the closing line. */
  lemma BodyRows(evs: seq<Event>)
    ensures Split(Body(evs), '\n') == ["  " + (Rows(evs) + [""])[0]] + (Rows(evs) + [""])[1..] + ["  "]
    ensures evs == [] ==> Split(Body(evs), '\n') == ["  ", "  "]
  {
    BodyLines(Rows(evs), "  ");
    assert Body(evs) == "  " + Terminated(Rows(evs)) + ['\n'] + "  ";
    if evs == [] {
      assert (Rows(evs) + [""])[0] == "";
      assert (Rows(evs) + [""])[1..] == [];
      assert "  " + "" == "  ";
    }
  }

  /** The line structure of the section: an empty line, the heading (five
      `'#'` for sub-components, four otherwise), an empty line, the title
      and rule lines, then the lines of the table body. */
  lemma DocumentLines(evs: seq<Event>, opt: HeaderOptions)
    ensures |Split(Document(evs, opt), '\n')| > 5
    ensures Split(Document(evs, opt), '\n')[..5] == ["", Heading(opt), "", TitleLine, RuleLine]
    ensures Split(Document(evs, opt), '\n')[5..] == Split(Body(evs), '\n')
    ensures LeadingHashes(Split(Document(evs, opt), '\n')[1]) == if opt.isSubComponent || opt.hasSubComponents then 5 else 4
  {
    PreambleLines(opt, Body(evs));
    HeadingLevel(opt);
  }

  /** The worked example: a pipe in an event name is escaped and a line
      feed in a description becomes a break. */
  lemma ExampleName()
    ensures MdClean("a|b") == "a\\|b"
  {
    assert "a|b" == "a" + "|b" && "|b" == "|" + "b";
    MdCleanAppend("a", "|b");
    MdCleanAppend("|", "b");
    MdCleanTokens('a');
    MdCleanTokens('b');
  }

  lemma ExampleDescription()
    ensures MdClean("x\ny") == "x<br>y"
  {
    assert "x\ny" == "x" + "\ny" && "\ny" == "\n" + "y";
    MdCleanAppend("x", "\ny");
    MdCleanAppend("\n", "y");
    MdCleanTokens('x');
    MdCleanTokens('y');
  }
}

=== FILE: modal.dfy ===
/** The modal's decision logic (src/components/modal/CModal.ts): prop
    validation, the window-level key and click handlers, the transition
    hooks that register and remove those handlers, and the classes of the
    dialog element.  The DOM is abstracted: whether the modal and content
    elements exist and whether an event's target lies inside the content
    are plain booleans, and the handlers' side effects are returned as a
    list of effects. */
module Modal {
  import opened Optional

  // ---------------------------------------------------------------------
  // Props and their validators

  /** The `backdrop` prop: a boolean or a string; only `'static'` changes
      the handlers' behaviour. */
  datatype Backdrop = BackdropFlag(flag: bool) | BackdropText(text: string)

  /** The `fullscreen` prop: a boolean or a breakpoint name. */
  datatype Fullscreen = FsFlag(flag: bool) | FsText(text: string)

  /** The props the handlers and the dialog classes read; an absent
      `fullscreen` or `size` is `None`. */
  datatype Props = Props(
    alignment: string,
    backdrop: Backdrop,
    fullscreen: Option<Fullscreen>,
    keyboard: bool,
    scrollable: bool,
    size: Option<string>)

  /** The defaults: top alignment, a non-static backdrop, Escape closes. */
  function DefaultProps(): (p: Props)
    ensures AlignmentValidator(p.alignment) && !Static(p) && p.keyboard
  {
    Props("top", BackdropFlag(true), None, true, false, None)
  }

  predicate AlignmentValidator(v: string) {
    v in ["top", "center"]
  }

  const FullscreenBreakpoints: seq<string> := ["sm", "md", "lg", "xl", "xxl"]

  /** A string must name a breakpoint; any boolean is accepted. */
  function FullscreenValidator(v: Fullscreen): (ok: bool)
    ensures v.FsFlag? ==> ok
    ensures v.FsText? ==> (ok <==> v.text in FullscreenBreakpoints)
  {
    match v
    case FsText(t) => t in FullscreenBreakpoints
    case FsFlag(_) => true
  }

  predicate SizeValidator(v: string) {
    v in ["sm", "lg", "xl"]
  }

  predicate ValidProps(p: Props) {
    && AlignmentValidator(p.alignment)
    && (p.fullscreen.Some? ==> FullscreenValidator(p.fullscreen.value))
    && (p.size.Some? ==> SizeValidator(p.size.value))
  }

  /** The backdrop is `'static'`: outside clicks and keys only flash it. */
  predicate Static(p: Props) {
    p.backdrop == BackdropText("static")
  }

  // ---------------------------------------------------------------------
  // Window handlers

  /** Which element references are set: the modal element and its content
      element. */
  datatype Refs = Refs(modal: bool, content: bool)

  /** A window-level event; `outside` says the target is not within the
      content element. */
  datatype Input = KeyUp(key: string, outside: bool) | Click(outside: bool)

  /** `Dismiss` emits the `dismiss` event; `FlashStatic` adds the
      `modal-static` class to the modal element and removes it 300 ms
      later. */
  datatype Effect = Dismiss | FlashStatic

  /** A handler either runs to completion with its effects, or throws
      because the static branch reached for a modal element that is not
      there. */
  datatype Outcome = Handled(effects: seq<Effect>) | Threw

  /** The static branch shared by both handlers. */
  function FlashIfStatic(p: Props, refs: Refs): Outcome {
    if Static(p) then (if refs.modal then Handled([FlashStatic]) else Threw)
    else Handled([])
  }

  /** `handleKeyUp`: Escape outside the content of a non-static modal with
      `keyboard` set dismisses it and returns at once; a static modal
      flashes instead, whatever the key or target. */
  function HandleKeyUp(p: Props, refs: Refs, key: string, outside: bool): (o: Outcome)
    ensures (o.Handled? && Dismiss in o.effects)
            <==> (refs.content && outside && !Static(p) && key == "Escape" && p.keyboard)
    ensures Static(p) ==> o == (if refs.modal then Handled([FlashStatic]) else Threw)
    ensures !Static(p) ==> o.Handled? && |o.effects| <= 1 && FlashStatic !in o.effects
  {
    if refs.content && outside && !Static(p) && key == "Escape" && p.keyboard then
      Handled([Dismiss])
    else
      FlashIfStatic(p, refs)
  }

  /** `handleClickOutside`: a click outside the content of a non-static
      modal dismisses it; a static modal flashes instead. */
  function HandleClickOutside(p: Props, refs: Refs, outside: bool): (o: Outcome)
    ensures (o.Handled? && Dismiss in o.effects) <==> (refs.content && outside && !Static(p))
    ensures Static(p) ==> o == (if refs.modal then Handled([FlashStatic]) else Threw)
    ensures !Static(p) ==> o.Handled? && |o.effects| <= 1 && FlashStatic !in o.effects
  {
    if Static(p) then FlashIfStatic(p, refs)
    else Handled(if refs.content && outside then [Dismiss] else [])
  }

  /** Either window event: `dismiss` needs content, a target outside it
      and a non-static backdrop, and for a key also Escape with `keyboard`
      set. */
  function HandleInput(p: Props, refs: Refs, ev: Input): (o: Outcome)
    ensures (o.Handled? && Dismiss in o.effects)
            <==> (refs.content && ev.outside && !Static(p) && (ev.Click? || (ev.key == "Escape" && p.keyboard)))
    ensures o.Threw? <==> Static(p) && !refs.modal
  {
    match ev
    case KeyUp(k, out) => HandleKeyUp(p, refs, k, out)
    case Click(out) => HandleClickOutside(p, refs, out)
  }

  // ---------------------------------------------------------------------
  // Transition hooks and listener registration

  /** The four transition hooks of the modal element. */
  datatype Hook = Enter | AfterEnter | Leave | AfterLeave

  /** Whether the two window listeners are registered, and whether the
      body carries `modal-open`.  Registering a listener that is already
      registered changes nothing, so one flag covers repeated hooks. */
  datatype Life = Life(listening: bool, bodyOpen: bool)

  const Closed := Life(false, false)

  function ApplyHook(l: Life, h: Hook): (r: Life)
    ensures h == Enter ==> r == l.(bodyOpen := true)
    ensures h == Leave ==> r == l.(bodyOpen := false)
    ensures h == AfterEnter ==> r == l.(listening := true)
    ensures h == AfterLeave ==> r == l.(listening := false)
  {
    match h
    case Enter => l.(bodyOpen := true)
    case AfterEnter => l.(listening := true)
    case Leave => l.(bodyOpen := false)
    case AfterLeave => l.(listening := false)
  }

  /** What the modal sees: a transition hook, or a window event. */
  datatype Item = HookItem(hook: Hook) | EventItem(ev: Input)

  /** Where a sequence of items leaves the modal: the registration state,
      every effect in order, and whether some handler threw. */
  datatype Trace = Trace(life: Life, effects: seq<Effect>, threw: bool)

  /** An event reaches the handlers only while they are registered. */
  function Deliver(p: Props, refs: Refs, l: Life, ev: Input): (o: Outcome)
    ensures !l.listening ==> o == Handled([])
    ensures l.listening ==> o == HandleInput(p, refs, ev)
  {
    if l.listening then HandleInput(p, refs, ev) else Handled([])
  }

  function StepItem(p: Props, refs: Refs, t: Trace, it: Item): Trace {
    match it
    case HookItem(h) => t.(life := ApplyHook(t.life, h))
    case EventItem(ev) =>
      match Deliver(p, refs, t.life, ev)
      case Handled(es) => t.(effects := t.effects + es)
      case Threw => t.(threw := true)
  }

  /** Processes the items in order; a handler that throws does not stop
      later events. */
  function Session(p: Props, refs: Refs, t: Trace, items: seq<Item>): Trace
    decreases |items|
  {
    if items == [] then t else Session(p, refs, StepItem(p, refs, t, items[0]), items[1..])
  }

  /** The last listener hook in `items`, if any. */
  function LastListenerHook(items: seq<Item>): Option<Hook> {
    if items == [] then None
    else
      var it := items[|items| - 1];
      if it.HookItem? && (it.hook == AfterEnter || it.hook == AfterLeave) then Some(it.hook)
      else LastListenerHook(items[..|items| - 1])
  }

  /** The last body-class hook in `items`, if any. */
  function LastBodyHook(items: seq<Item>): Option<Hook> {
    if items == [] then None
    else
      var it := items[|items| - 1];
      if it.HookItem? && (it.hook == Enter || it.hook == Leave) then Some(it.hook)
      else LastBodyHook(items[..|items| - 1])
  }

  lemma SessionSnoc(p: Props, refs: Refs, t: Trace, items: seq<Item>, it: Item)
    ensures Session(p, refs, t, items + [it]) == StepItem(p, refs, Session(p, refs, t, items), it)
    decreases |items|
  {
    if items != [] {
      assert (items + [it])[1..] == items[1..] + [it];
      SessionSnoc(p, refs, StepItem(p, refs, t, items[0]), items[1..], it);
    }
  }

  /** Starting closed, the handlers are registered exactly when the last
      listener hook was `AfterEnter`, and the body carries `modal-open`
      exactly when the last body hook was `Enter`. */
  lemma {:induction false} SessionLife(p: Props, refs: Refs, effects: seq<Effect>, threw: bool, items: seq<Item>)
    ensures Session(p, refs, Trace(Closed, effects, threw), items).life.listening
            <==> LastListenerHook(items) == Some(AfterEnter)
    ensures Session(p, refs, Trace(Closed, effects, threw), items).life.bodyOpen
            <==> LastBodyHook(items) == Some(Enter)
    decreases |items|
  {
    if items != [] {
      var init := items[..|items| - 1];
      var it := items[|items| - 1];
      assert items == init + [it];
      SessionSnoc(p, refs, Trace(Closed, effects, threw), init, it);
      SessionLife(p, refs, effects, threw, init);
    }
  }

  /** Events never produce effects before the first `AfterEnter`. */
  lemma {:induction false} NothingBeforeShown(p: Props, refs: Refs, t: Trace, items: seq<Item>)
    requires !t.life.listening
    requires forall i :: 0 <= i < |items| ==> items[i] != HookItem(AfterEnter)
    ensures Session(p, refs, t, items) == Trace(Session(p, refs, t, items).life, t.effects, t.threw)
    ensures !Session(p, refs, t, items).life.listening
    decreases |items|
  {
    if items != [] {
      var t1 := StepItem(p, refs, t, items[0]);
      assert t1.effects == t.effects && t1.threw == t.threw && !t1.life.listening;
      assert forall i :: 0 <= i < |items[1..]| ==> items[1..][i] == items[i + 1];
      NothingBeforeShown(p, refs, t1, items[1..]);
    }
  }

  /** A static modal is never dismissed from outside, whatever happens. */
  lemma {:induction false} StaticNeverDismissed(p: Props, refs: Refs, t: Trace, items: seq<Item>)
    requires Static(p) && Dismiss !in t.effects
    ensures Dismiss !in Session(p, refs, t, items).effects
    decreases |items|
  {
    if items != [] {
      var t1 := StepItem(p, refs, t, items[0]);
      assert Dismiss !in t1.effects by {
        if items[0].EventItem? && t.life.listening {
          match HandleInput(p, refs, items[0].ev)
          case Handled(es) =>
            assert es == [FlashStatic];
            assert t1.effects == t.effects + es;
          case Threw =>
        }
      }
      StaticNeverDismissed(p, refs, t1, items[1..]);
    }
  }

  /** A non-static modal never flashes and never throws. */
  lemma {:induction false} NonStaticNeverFlashes(p: Props, refs: Refs, t: Trace, items: seq<Item>)
    requires !Static(p) && FlashStatic !in t.effects && !t.threw
    ensures FlashStatic !in Session(p, refs, t, items).effects
    ensures !Session(p, refs, t, items).threw
    decreases |items|
  {
    if items != [] {
      var t1 := StepItem(p, refs, t, items[0]);
      assert FlashStatic !in t1.effects && !t1.threw by {
        if items[0].EventItem? && t.life.listening {
          var o := HandleInput(p, refs, items[0].ev);
          assert o.Handled? && FlashStatic !in o.effects;
          assert t1.effects == t.effects + o.effects;
        }
      }
      NonStaticNeverFlashes(p, refs, t1, items[1..]);
    }
  }

  // ---------------------------------------------------------------------
  // Dialog classes

  /** One `key: value` entry of a class object; the value is reduced to
      its truthiness. */
  type Entry = (string, bool)

  /** Writing `key: value` into an object: a key already present keeps its
      position and takes the new value; a new key goes last.  This is
      JavaScript's order for string keys that do not look like array
      indices, which every `modal-…` key of the dialog is. */
  function Assign(obj: seq<Entry>, k: string, v: bool): seq<Entry> {
    if obj == [] then [(k, v)]
    else if obj[0].0 == k then [(k, v)] + obj[1..]
    else [obj[0]] + Assign(obj[1..], k, v)
  }

  /** The object an object literal with these entries evaluates to. */
  function Build(entries: seq<Entry>): seq<Entry>
    decreases |entries|
  {
    if entries == [] then []
    else
      var last := entries[|entries| - 1];
      Assign(Build(entries[..|entries| - 1]), last.0, last.1)
  }

  /** The class `c` when `b` holds, nothing otherwise. */
  function ClassIf(b: bool, c: string): (cs: seq<string>)
    ensures cs == [] <==> !b
  {
    if b then [c] else []
  }

  /** The keys with truthy values, in object order. */
  function TruthyKeys(obj: seq<Entry>): seq<string> {
    if obj == [] then []
    else ClassIf(obj[0].1, obj[0].0) + TruthyKeys(obj[1..])
  }

  /** The classes a class object contributes when it is normalised. */
  function ObjectClasses(entries: seq<Entry>): seq<string> {
    TruthyKeys(Build(entries))
  }

  /** The value the last entry for `k` writes, if any. */
  function LastValue(entries: seq<Entry>, k: string): Option<bool> {
    if entries == [] then None
    else if entries[|entries| - 1].0 == k then Some(entries[|entries| - 1].1)
    else LastValue(entries[..|entries| - 1], k)
  }

  /** The value stored in an object for `k`. */
  function Lookup(obj: seq<Entry>, k: string): Option<bool> {
    if obj == [] then None
    else if obj[0].0 == k then Some(obj[0].1)
    else Lookup(obj[1..], k)
  }

  ghost predicate DistinctKeys(obj: seq<Entry>) {
    forall i, j :: 0 <= i < j < |obj| ==> obj[i].0 != obj[j].0
  }

  ghost predicate Distinct(xs: seq<string>) {
    forall i, j :: 0 <= i < j < |xs| ==> xs[i] != xs[j]
  }

  lemma {:induction false} AssignLookup(obj: seq<Entry>, k: string, v: bool, k': string)
    ensures Lookup(Assign(obj, k, v), k') == if k' == k then Some(v) else Lookup(obj, k')
  {
    if obj != [] && obj[0].0 != k {
      AssignLookup(obj[1..], k, v, k');
      assert Assign(obj, k, v)[1..] == Assign(obj[1..], k, v);
    }
  }

  /** A key stored anywhere in the object is found by lookup. */
  lemma {:induction false} LookupFound(obj: seq<Entry>, m: int)
    requires 0 <= m < |obj|
    ensures Lookup(obj, obj[m].0).Some?
  {
    if m > 0 && obj[0].0 != obj[m].0 {
      LookupFound(obj[1..], m - 1);
    }
  }

  lemma {:induction false} AssignDistinct(obj: seq<Entry>, k: string, v: bool)
    requires DistinctKeys(obj)
    ensures DistinctKeys(Assign(obj, k, v))
  {
    if obj != [] && obj[0].0 != k {
      var rest := Assign(obj[1..], k, v);
      AssignDistinct(obj[1..], k, v);
      assert Lookup(obj[1..], obj[0].0) == None by {
        assert forall i :: 0 <= i < |obj[1..]| ==> obj[1..][i] == obj[i + 1];
        LookupNone(obj[1..], obj[0].0);
      }
      AssignLookup(obj[1..], k, v, obj[0].0);
      var r := [obj[0]] + rest;
      forall i, j | 0 <= i < j < |r|
        ensures r[i].0 != r[j].0
      {
        if i == 0 {
          assert r[j] == rest[j - 1];
          LookupFound(rest, j - 1);
        }
      }
    }
  }

  /** The object has the keys of its entries, each once, holding the last
      value written for it. */
  lemma {:induction false} BuildLookup(entries: seq<Entry>, k: string)
    ensures DistinctKeys(Build(entries))
    ensures Lookup(Build(entries), k) == LastValue(entries, k)
    decreases |entries|
  {
    if entries != [] {
      var init := entries[..|entries| - 1];
      var last := entries[|entries| - 1];
      BuildLookup(init, k);
      AssignDistinct(Build(init), last.0, last.1);
      AssignLookup(Build(init), last.0, last.1, k);
    }
  }

  lemma {:induction false} TruthyKeysMember(obj: seq<Entry>, k: string)
    requires DistinctKeys(obj)
    ensures k in TruthyKeys(obj) <==> Lookup(obj, k) == Some(true)
  {
    if obj != [] {
      TruthyKeysMember(obj[1..], k);
      if obj[0].0 == k {
        assert Lookup(obj[1..], k) == None by {
          LookupNone(obj[1..], k);
          assert forall i :: 0 <= i < |obj[1..]| ==> obj[1..][i].0 != k by {
            assert forall i :: 0 < i < |obj| ==> obj[i].0 != obj[0].0;
          }
        }
      }
    }
  }

  lemma {:induction false} LookupNone(obj: seq<Entry>, k: string)
    requires forall i :: 0 <= i < |obj| ==> obj[i].0 != k
    ensures Lookup(obj, k) == None
  {
    if obj != [] {
      assert forall i :: 0 <= i < |obj[1..]| ==> obj[1..][i] == obj[i + 1];
      LookupNone(obj[1..], k);
    }
  }

  lemma {:induction false} TruthyKeysDistinct(obj: seq<Entry>)
    requires DistinctKeys(obj)
    ensures Distinct(TruthyKeys(obj))
  {
    if obj != [] {
      var rest := TruthyKeys(obj[1..]);
      TruthyKeysDistinct(obj[1..]);
      if obj[0].1 {
        assert obj[0].0 !in rest by {
          TruthyKeysMember(obj[1..], obj[0].0);
          LookupNone(obj[1..], obj[0].0);
        }
        var r := [obj[0].0] + rest;
        forall i, j | 0 <= i < j < |r|
          ensures r[i] != r[j]
        {
          if i == 0 {
            assert r[j] == rest[j - 1];
          }
        }
      }
    }
  }

  /** Normalising a class object: a key becomes a class exactly when the
      last value written for it is truthy, and no class appears twice. */
  lemma ObjectClassesMember(entries: seq<Entry>, k: string)
    ensures k in ObjectClasses(entries) <==> LastValue(entries, k) == Some(true)
    ensures Distinct(ObjectClasses(entries))
  {
    BuildLookup(entries, k);
    TruthyKeysMember(Build(entries), k);
    TruthyKeysDistinct(Build(entries));
  }

  lemma {:induction false} AssignFresh(obj: seq<Entry>, k: string, v: bool)
    requires forall i :: 0 <= i < |obj| ==> obj[i].0 != k
    ensures Assign(obj, k, v) == obj + [(k, v)]
  {
    if obj != [] {
      assert forall i :: 0 <= i < |obj[1..]| ==> obj[1..][i] == obj[i + 1];
      AssignFresh(obj[1..], k, v);
    }
  }

  /** With distinct keys, the object is the entries themselves. */
  lemma {:induction false} BuildDistinct(entries: seq<Entry>)
    requires DistinctKeys(entries)
    ensures Build(entries) == entries
    decreases |entries|
  {
    if entries != [] {
      var init := entries[..|entries| - 1];
      var last := entries[|entries| - 1];
      assert DistinctKeys(init) by {
        forall i, j | 0 <= i < j < |init|
          ensures init[i].0 != init[j].0
        {
          assert init[i] == entries[i] && init[j] == entries[j];
        }
      }
      BuildDistinct(init);
      assert forall i :: 0 <= i < |init| ==> init[i].0 != last.0 by {
        forall i | 0 <= i < |init|
          ensures init[i].0 != last.0
        {
          assert init[i] == entries[i];
        }
      }
      AssignFresh(init, last.0, last.1);
      assert init + [last] == entries;
    }
  }

  /** `${v}` for the `fullscreen` prop. */
  function FullscreenText(v: Option<Fullscreen>): string {
    match v
    case None => "undefined"
    case Some(FsFlag(b)) => if b then "true" else "false"
    case Some(FsText(t)) => t
  }

  /** The key `modal-fullscreen-${fullscreen}-down`. */
  function FullscreenDownKey(v: Option<Fullscreen>): string {
    "modal-fullscreen-" + FullscreenText(v) + "-down"
  }

  /** The key `modal-${size}`. */
  function SizeKey(v: Option<string>): string {
    "modal-" + v.OrElse("undefined")
  }

  /** `fullscreen && typeof fullscreen === 'string'` is truthy. */
  predicate FullscreenIsBreakpoint(v: Option<Fullscreen>) {
    v.Some? && v.value.FsText? && v.value.text != ""
  }

  /** `size` is truthy. */
  predicate SizeGiven(v: Option<string>) {
    v.Some? && v.value != ""
  }

  /** The class object of the dialog element, entry by entry. */
  function DialogEntries(p: Props): (es: seq<Entry>)
    ensures |es| == 5
    ensures forall i :: 0 <= i < |es| ==> |es[i].0| >= 6 && es[i].0[..6] == "modal-"
  {
    [ ("modal-dialog-centered", p.alignment == "center"),
      (FullscreenDownKey(p.fullscreen), FullscreenIsBreakpoint(p.fullscreen)),
      ("modal-fullscreen", p.fullscreen == Some(FsFlag(true))),
      ("modal-dialog-scrollable", p.scrollable),
      (SizeKey(p.size), SizeGiven(p.size)) ]
  }

  /** The dialog element's classes: `modal-dialog`, then the class object's
      truthy keys. */
  function DialogClasses(p: Props): (cs: seq<string>)
    ensures |cs| > 0 && cs[0] == "modal-dialog"
  {
    ["modal-dialog"] + ObjectClasses(DialogEntries(p))
  }

  /** The classes the dialog is meant to carry, read off prop by prop. */
  function ExpectedDialogClasses(p: Props): seq<string> {
    ["modal-dialog"]
    + (ClassIf(p.alignment == "center", "modal-dialog-centered")
    + (ClassIf(FullscreenIsBreakpoint(p.fullscreen), FullscreenDownKey(p.fullscreen))
    + (ClassIf(p.fullscreen == Some(FsFlag(true)), "modal-fullscreen")
    + (ClassIf(p.scrollable, "modal-dialog-scrollable")
    + ClassIf(SizeGiven(p.size), SizeKey(p.size))))))
  }

  lemma PrefixChar(a: string, b: string, i: int)
    requires 0 <= i < |a|
    ensures (a + b)[i] == a[i]
  {
  }

  /** With a valid (or absent) size, the five keys of the class object are
      distinct: they differ in length or in the character after
      `modal-`. */
  lemma DialogKeysDistinct(p: Props)
    requires p.size.Some? ==> SizeValidator(p.size.value)
    ensures DistinctKeys(DialogEntries(p))
  {
    var e := DialogEntries(p);
    var fs := FullscreenText(p.fullscreen);
    var sz := p.size.OrElse("undefined");
    assert |e[1].0| == 22 + |fs|;
    assert e[1].0[6] == 'f' by {
      PrefixChar("modal-fullscreen-" + fs, "-down", 6);
      PrefixChar("modal-fullscreen-", fs, 6);
    }
    assert sz[0] == 's' || sz[0] == 'l' || sz[0] == 'x' || sz[0] == 'u';
    assert e[4].0[6] == sz[0];
    assert e[0].0[6] == 'd' && e[2].0[6] == 'f' && e[3].0[6] == 'd';
    assert |e[0].0| == 21 && |e[2].0| == 16 && |e[3].0| == 23;
  }

  lemma TruthyKeysFrom(e: seq<Entry>, i: int)
    requires 0 <= i < |e|
    ensures TruthyKeys(e[i..]) == ClassIf(e[i].1, e[i].0) + TruthyKeys(e[i + 1..])
  {
    assert e[i..][1..] == e[i + 1..];
  }

  /** The truthy keys of an object, one entry at a time. */
  lemma TruthyKeysOfFive(e: seq<Entry>)
    requires |e| == 5
    ensures TruthyKeys(e) ==
      ClassIf(e[0].1, e[0].0) + (ClassIf(e[1].1, e[1].0) + (ClassIf(e[2].1, e[2].0)
      + (ClassIf(e[3].1, e[3].0) + ClassIf(e[4].1, e[4].0))))
  {
    TruthyKeysFrom(e, 0);
    TruthyKeysFrom(e, 1);
    TruthyKeysFrom(e, 2);
    TruthyKeysFrom(e, 3);
    TruthyKeysFrom(e, 4);
    assert e[0..] == e;
    assert e[5..] == [];
    assert ClassIf(e[4].1, e[4].0) + [] == ClassIf(e[4].1, e[4].0);
  }

  /** With a valid (or absent) size, the dialog carries exactly the classes
      each prop asks for, in the object's order. */
  lemma DialogClassesExpected(p: Props)
    requires p.size.Some? ==> SizeValidator(p.size.value)
    ensures DialogClasses(p) == ExpectedDialogClasses(p)
  {
    DialogKeysDistinct(p);
    BuildDistinct(DialogEntries(p));
    TruthyKeysOfFive(DialogEntries(p));
  }

  lemma ClassIfMember(b: bool, c: string, x: string)
    ensures x in ClassIf(b, c) <==> b && x == c
  {
  }

  lemma MemberOfSix(x: string, c0: seq<string>, c1: seq<string>, c2: seq<string>, c3: seq<string>, c4: seq<string>)
    ensures x in ["modal-dialog"] + (c0 + (c1 + (c2 + (c3 + c4))))
            <==> x == "modal-dialog" || x in c0 || x in c1 || x in c2 || x in c3 || x in c4
  {
  }

  /** A class is on the dialog exactly when it is `modal-dialog` or one of
      the five object entries asks for it. */
  lemma ExpectedMember(p: Props, x: string)
    ensures x in ExpectedDialogClasses(p) <==>
      || x == "modal-dialog"
      || (p.alignment == "center" && x == "modal-dialog-centered")
      || (FullscreenIsBreakpoint(p.fullscreen) && x == FullscreenDownKey(p.fullscreen))
      || (p.fullscreen == Some(FsFlag(true)) && x == "modal-fullscreen")
      || (p.scrollable && x == "modal-dialog-scrollable")
      || (SizeGiven(p.size) && x == SizeKey(p.size))
  {
    var c0 := ClassIf(p.alignment == "center", "modal-dialog-centered");
    var c1 := ClassIf(FullscreenIsBreakpoint(p.fullscreen), FullscreenDownKey(p.fullscreen));
    var c2 := ClassIf(p.fullscreen == Some(FsFlag(true)), "modal-fullscreen");
    var c3 := ClassIf(p.scrollable, "modal-dialog-scrollable");
    var c4 := ClassIf(SizeGiven(p.size), SizeKey(p.size));
    MemberOfSix(x, c0, c1, c2, c3, c4);
    ClassIfMember(p.alignment == "center", "modal-dialog-centered", x);
    ClassIfMember(FullscreenIsBreakpoint(p.fullscreen), FullscreenDownKey(p.fullscreen), x);
    ClassIfMember(p.fullscreen == Some(FsFlag(true)), "modal-fullscreen", x);
    ClassIfMember(p.scrollable, "modal-dialog-scrollable", x);
    ClassIfMember(SizeGiven(p.size), SizeKey(p.size), x);
  }

  /** For valid props: centred exactly for `'center'`; a breakpoint gives
      `modal-fullscreen-<bp>-down`, `true` gives `modal-fullscreen`, and
      never both; scrollable and size each add their class. */
  lemma DialogClassesValid(p: Props)
    requires ValidProps(p)
    ensures "modal-dialog-centered" in DialogClasses(p) <==> p.alignment == "center"
    ensures "modal-fullscreen" in DialogClasses(p) <==> p.fullscreen == Some(FsFlag(true))
    ensures p.fullscreen.Some? && p.fullscreen.value.FsText? ==>
      "modal-fullscreen-" + p.fullscreen.value.text + "-down" in DialogClasses(p)
    ensures "modal-dialog-scrollable" in DialogClasses(p) <==> p.scrollable
    ensures p.size.Some? ==> "modal-" + p.size.value in DialogClasses(p)
    ensures !("modal-fullscreen" in DialogClasses(p) && FullscreenDownKey(p.fullscreen) in DialogClasses(p))
  {
    DialogClassesExpected(p);
    var fs := FullscreenText(p.fullscreen);
    var fk := FullscreenDownKey(p.fullscreen);
    var sk := SizeKey(p.size);
    assert |fk| == 22 + |fs|;
    assert FullscreenIsBreakpoint(p.fullscreen) ==> |fs| >= 2;
    assert |sk| == 6 + |p.size.OrElse("undefined")|;
    assert SizeGiven(p.size) ==> |sk| == 8;
    assert |"modal-dialog"| == 12 && |"modal-dialog-centered"| == 21;
    assert |"modal-fullscreen"| == 16 && |"modal-dialog-scrollable"| == 23;
    ExpectedMember(p, "modal-dialog-centered");
    ExpectedMember(p, "modal-fullscreen");
    ExpectedMember(p, fk);
    ExpectedMember(p, "modal-dialog-scrollable");
    ExpectedMember(p, sk);
  }

  /** A valid alignment is `'top'` or `'center'`, so the dialog is centred
      exactly when it is not top-aligned. */
  lemma AlignmentCentres(p: Props)
    requires ValidProps(p)
    ensures "modal-dialog-centered" in DialogClasses(p) <==> p.alignment != "top"
  {
    DialogClassesValid(p);
  }

  /** A valid size names one of the three size classes, and the dialog
      carries it. */
  lemma SizeClass(p: Props)
    requires ValidProps(p) && p.size.Some?
    ensures SizeKey(p.size) in ["modal-sm", "modal-lg", "modal-xl"]
    ensures SizeKey(p.size) in DialogClasses(p)
  {
    DialogClassesValid(p);
    var v := p.size.value;
    assert v == "sm" || v == "lg" || v == "xl";
    assert SizeKey(p.size) == "modal-" + v;
    if v == "sm" {
      assert "modal-" + v == "modal-sm";
    } else if v == "lg" {
      assert "modal-" + v == "modal-lg";
    } else {
      assert "modal-" + v == "modal-xl";
    }
  }
}

=== FILE: optional.dfy ===
/** JavaScript values that may be `undefined`: an absent prop, a missing
    field of a descriptor. */
module Optional {

  datatype Option<+T> = None | Some(value: T) {

    /** The held value, or `fallback` when there is none, as `??` would
        give. */
    function OrElse(fallback: T): T {
      if Some? then value else fallback
    }
  }
}

=== FILE: text.dfy ===
/** Character-level string helpers shared by the templater model: counting a
    character, JavaScript's `Array.prototype.join` and `String.prototype.split`
    on a single-character separator, and the facts that connect them. */
module Text {

  /** Number of occurrences of `c` in `s`. */
  function Count(s: string, c: char): (n: nat)
    ensures n <= |s|
    ensures n == 0 <==> c !in s
  {
    if s == [] then 0
    else (if s[0] == c then 1 else 0) + Count(s[1..], c)
  }

  lemma {:induction false} CountAppend(a: string, b: string, c: char)
    ensures Count(a + b, c) == Count(a, c) + Count(b, c)
  {
    if a == [] {
      assert a + b == b;
    } else {
      assert (a + b)[1..] == a[1..] + b;
      CountAppend(a[1..], b, c);
    }
  }

  /** `xs.join(sep)`: the elements with `sep` between consecutive ones. */
  function Join(xs: seq<string>, sep: string): string
  {
    if |xs| == 0 then ""
    else if |xs| == 1 then xs[0]
    else xs[0] + sep + Join(xs[1..], sep)
  }

  /** `s.split(c)` for a one-character separator: always at least one piece,
      and the pieces are the maximal runs of characters other than `c`. */
  function Split(s: string, c: char): (pieces: seq<string>)
    ensures |pieces| > 0
  {
    if s == [] then [""]
    else if s[0] == c then [""] + Split(s[1..], c)
    else
      var rest := Split(s[1..], c);
      [[s[0]] + rest[0]] + rest[1..]
  }

  /** One more piece than there are separators, none holding one. */
  lemma {:induction false} SplitShape(s: string, c: char)
    ensures |Split(s, c)| == Count(s, c) + 1
    ensures forall i :: 0 <= i < |Split(s, c)| ==> c !in Split(s, c)[i]
  {
    if s != [] {
      SplitShape(s[1..], c);
    }
  }

  /** Splitting a piece that has no separator, followed by the separator,
      yields that piece and then the split of what follows. */
  lemma {:induction false} SplitPrefix(x: string, c: char, rest: string)
    requires c !in x
    ensures Split(x + [c] + rest, c) == [x] + Split(rest, c)
  {
    if x == [] {
      assert x + [c] + rest == [c] + rest;
      assert ([c] + rest)[1..] == rest;
    } else {
      assert (x + [c] + rest)[1..] == x[1..] + [c] + rest;
      SplitPrefix(x[1..], c, rest);
      assert [x[0]] + x[1..] == x;
    }
  }

  /** A string without the separator splits into itself alone. */
  lemma {:induction false} SplitNone(x: string, c: char)
    requires c !in x
    ensures Split(x, c) == [x]
  {
    if x != [] {
      SplitNone(x[1..], c);
      assert [x[0]] + x[1..] == x;
    }
  }

  /** Round trip: splitting a join on a separator the elements do not
      contain gives the elements back. */
  lemma {:induction false} SplitJoin(xs: seq<string>, c: char)
    requires |xs| > 0
    requires forall i :: 0 <= i < |xs| ==> c !in xs[i]
    ensures Split(Join(xs, [c]), c) == xs
  {
    if |xs| == 1 {
      SplitNone(xs[0], c);
    } else {
      SplitJoin(xs[1..], c);
      SplitPrefix(xs[0], c, Join(xs[1..], [c]));
    }
  }

  /** A join of n >= 1 separator-free elements holds exactly n - 1 separators. */
  lemma {:induction false} JoinCount(xs: seq<string>, c: char)
    requires |xs| > 0
    requires forall i :: 0 <= i < |xs| ==> c !in xs[i]
    ensures Count(Join(xs, [c]), c) == |xs| - 1
  {
    SplitJoin(xs, c);
    SplitShape(Join(xs, [c]), c);
  }

  /** A piece without the separator in front of `s` joins the first piece
      of `s`'s split. */
  lemma {:induction false} SplitPad(pad: string, s: string, c: char)
    requires c !in pad
    ensures Split(pad + s, c) == [pad + Split(s, c)[0]] + Split(s, c)[1..]
  {
    var sp := Split(s, c);
    if pad == [] {
      assert pad + s == s;
      assert pad + sp[0] == sp[0];
      assert sp == [sp[0]] + sp[1..];
    } else {
      assert (pad + s)[1..] == pad[1..] + s;
      SplitPad(pad[1..], s, c);
      var rest := Split(pad[1..] + s, c);
      assert rest[0] == pad[1..] + sp[0];
      assert rest[1..] == sp[1..];
      assert [pad[0]] + (pad[1..] + sp[0]) == pad + sp[0];
    }
  }

  lemma StartsWithAppend(a: string, b: string, prefix: string)
    requires StartsWith(a, prefix)
    ensures StartsWith(a + b, prefix)
  {
    assert (a + b)[..|prefix|] == a[..|prefix|];
  }

  predicate StartsWith(s: string, prefix: string) {
    |prefix| <= |s| && s[..|prefix|] == prefix
  }

  predicate EndsWith(s: string, suffix: string) {
    |suffix| <= |s| && s[|s| - |suffix|..] == suffix
  }
}
